=== FILE: README.md ===
# Currency-exchange shortest paths: heap, graph and Dijkstra

The repository finds the cheapest chain of currency exchanges between two
currencies. Currencies are vertices of a weighted directed graph, and an exchange
fee is an edge weight. Every currency also carries a "bribe" value. Its core has
three parts:

- `MyHeap<T, Comp>` (MyHeap.hpp) is an array-backed binary heap with a pluggable
  priority relation `Comp::prior`. Its buffer grows by doubling on `push` and
  shrinks when it is three-quarters empty after a `pop`.
- `Graph` (graph.h) stores an adjacency matrix in which weight 0 means "no edge",
  an edge counter, a visitation mark per vertex and a currency (name and bribe
  value) per vertex. Every index-checked accessor throws `std::out_of_range`.
- `Dijkstra` (graph.h) runs lazy-deletion Dijkstra over
  `MyHeap<DijkElem, DDComp>`. It fills the distance list `D`, the bribe list `N`
  and the predecessor list `V`. Among equally short paths it keeps the one with
  the smaller bribe total. `pathTrace` follows `V` back from the target to
  rebuild the route.

The Dafny model has five modules, one per file:

| file | module | models |
|---|---|---|
| `heap.dfy` | `Heap` | MyHeap.hpp: index arithmetic, `sift_down`, `heapify`, the constructor, `top`, `pop`, `push`, `reserve`, `shrink_to_fit`, and draining by `top`/`pop` |
| `graph.dfy` | `Graphs` | the `Graph` class of graph.h, with exceptions as an `OutOfRange` result |
| `costs.dfy` | `Costs` | float costs with `INFINITY` as `Fin(n) \| Inf`, plus `DijkElem` and `DDComp` |
| `paths.dfy` | `Paths` | paths, their weight and bribe total, and `pathTrace` |
| `dijkstra.dfy` | `Dijkstra` | `Dijkstra`: one relaxation, the pop loop, the neighbour loop, and the whole run |

The main results:

- **Heap.** Every heap operation keeps the heap property and keeps the contents
  as a multiset. `push` adds exactly its element and `pop` removes exactly one
  copy of the top. Both follow the capacity rules. Draining the heap returns
  every element once, in priority order.
- **Dijkstra.** Every reached vertex ends with its shortest distance from `s`.
  Among shortest paths it gets the least bribe total, and its predecessor lies on
  such a path. An unreached vertex has no path from `s`. The only change to the
  graph is its marks.
- **pathTrace.** Following the predecessors yields a path whose weight and bribe
  total are exactly the recorded labels.

## Model

| member | source | states |
|---|---|---|
| Heap.Parent | MyHeap.hpp:124-127 | For a slot other than the root, the parent is a smaller slot that has it as its left or right child. The root is its own parent, because C++ division truncates toward zero. |
| Heap.Lc | MyHeap.hpp:139-142 | The left child lies after its slot, and its parent is that slot. |
| Heap.Rc | MyHeap.hpp:134-137 | The right child is the slot after the left child and has the same parent. |
| Heap.LeafIffNoLeftChild | MyHeap.hpp:129-132 | Inside a heap of `size` elements, `is_leaf(n)` (modelled by `Heap.IsLeaf`) holds exactly when the left child lies past the end. So `sift_down` only compares against occupied slots. |
| Heap.ParentMonotone | MyHeap.hpp:144-148 | A larger slot never has a smaller parent. So every slot after `parent(size-1)` is a leaf, and `heapify` may start there. |
| Heap.SiftDown | MyHeap.hpp:1-18 | If the subtrees below `n` are heaps, the subtree at `n` is one afterwards. The slots before `n` are untouched, and the contents are a permutation of the input. |
| Heap.Heapify | MyHeap.hpp:144-148 | Sifting down from `parent(size-1)` to 0 turns any sequence into a heap that is a permutation of it. |
| Heap.Build | MyHeap.hpp:20-37 | A positive size gives a valid heap holding exactly the first `size` elements of `arr`, with capacity `2*size`. Otherwise the heap is empty with capacity 0. |
| Heap.Top | MyHeap.hpp:58-61 | `top` returns an element stored in the (non-empty) heap. |
| Heap.TopIsFirst | MyHeap.hpp:58-61 | No stored element has priority over `top`. |
| Heap.RootFirst | MyHeap.hpp:58-61 | In a heap, no element has priority over slot 0. |
| Heap.Pop | MyHeap.hpp:63-75 | On an empty heap, nothing changes. Otherwise exactly one copy of the top is removed and the heap stays valid. The capacity is kept while it is less than four times the new size. Otherwise it becomes exactly twice the new size, or 0 when the heap is now empty. |
| Heap.ShrinkToFit | MyHeap.hpp:105-122 | The contents are kept. At a quarter full or less, the capacity becomes exactly twice the size, or 0 when empty. Otherwise nothing changes. |
| Heap.Push | MyHeap.hpp:77-93 | The heap gains exactly `it` and stays valid. The capacity becomes 1 from 0 and doubles when the buffer is full. Otherwise it is unchanged. |
| Heap.Reserve | MyHeap.hpp:95-103 | The elements are kept in order and the capacity becomes the requested size. |
| Heap.Drain | MyHeap.hpp:150-158 | Calling `top`/`pop` until the heap is empty (as `print` does) yields every element exactly once. No later element has priority over an earlier one. |
| Heap.DrainStep | MyHeap.hpp:153-157 | Appending the current top to the drained prefix keeps the prefix in priority order, ahead of everything still in the heap. |
| Heap.LargerChild | MyHeap.hpp:5-9 | The child `sift_down` compares against is the left child, or the right child when that exists and outranks the left. Either way the other child does not outrank it. |
| Heap.SiftDownSwaps | MyHeap.hpp:8-16 | A swap of `n` with its higher-priority child moves the single out-of-order position one level down. |
| Heap.SiftDownStops | MyHeap.hpp:11-12 | Returning early because `n` outranks its higher-priority child leaves a heap. |
| Heap.SiftUpSwaps | MyHeap.hpp:87-92 | Swapping `pos` with a parent it outranks moves the single out-of-order position one level up. |
| Costs.DDPriorIsStrictWeakOrder | graph.h:29-35 | `DDComp::prior` (smaller weight first) is a strict weak order, which the heap requires. |
| Costs.LessIsStrictTotal | graph.h:276 | Comparing costs that may be `INFINITY` is a strict total order. |
| Graphs.NewGraph | graph.h:57-72 | The new graph is valid, has no edges and an edge count of 0, and every vertex is unvisited with currency "EMPTY" and value -1. |
| Graphs.NumVert | graph.h:74 | In a well-formed graph the vertex count is non-negative and sizes the matrix and the mark list. |
| Graphs.NumEdges | graph.h:75 | In a valid graph the edge counter equals the number of nonzero matrix entries. |
| Graphs.FirstNeighbor | graph.h:77-82 | Returns the least vertex with an edge from `v`, or `numVert` when there is none. It throws exactly when the scan starts at a bad `v`. |
| Graphs.NextNeighbor | graph.h:84-89 | Returns the least vertex after `w` with an edge from `v`, or `numVert`. It throws exactly when the scan inside the matrix starts from a bad index. |
| Graphs.SetEdge | graph.h:91-102 | Throws exactly on a bad index or a negative weight. Otherwise it stores the weight, so that `weight` then returns it. It leaves every other entry alone and keeps the edge counter equal to the number of nonzero entries. |
| Graphs.DelEdge | graph.h:104-113 | Throws exactly on a bad index. Otherwise it acts as `setEdge` with weight 0: the entry is cleared and the counter stays exact. |
| Graphs.DelUndoesSet | graph.h:91-113 | `delEdge` undoes a `setEdge` on a vertex pair that had no edge: the matrix and the edge counter are restored exactly. |
| Graphs.IsEdge | graph.h:115-120 | Throws exactly on a bad index. Otherwise it returns whether the weight is nonzero. |
| Graphs.Weight | graph.h:122-127 | Throws exactly on a bad index. Otherwise it returns the stored weight, which in a valid graph is non-negative and positive exactly when the edge exists. |
| Graphs.GetMark | graph.h:129-134 | Throws exactly on a bad index. Otherwise it returns the vertex's mark. |
| Graphs.GetCurrency | graph.h:136-141 | Throws exactly on a bad index. Otherwise it returns the vertex's currency name. |
| Graphs.GetCurrencyVal | graph.h:143-148 | Throws exactly on a bad index. Otherwise it returns the vertex's bribe value. |
| Graphs.SetCurrency | graph.h:157-165 | Throws exactly on a bad index. Otherwise only that vertex's name and value change, to the given ones. |
| Graphs.SetMark | graph.h:167 | Only the mark of `v` changes, to the given mark. |
| Graphs.ClearMarks | graph.h:169-172 | Every vertex becomes unvisited and nothing else changes. |
| Graphs.EdgeCountUpdate | graph.h:91-113 | Replacing one row changes the nonzero-entry count by the difference of the two rows' counts, which is how `setEdge`/`delEdge` keep `numEdge` exact. |
| Paths.PathTrace | graph.h:295-304 | For a reached target other than the start, the traced vertex list is a path from `start` to `end`. Each vertex's predecessor in `V` is the vertex before it. The path's weight is `D[end]` and its bribe total is `N[end]`. |
| Paths.ExtendTrace | graph.h:301-303 | Appending `end` to a traced path to `V[end]` gives a traced path to `end`. |
| Paths.PrefixWeight | graph.h:276 | With no negative weight, a prefix of a path never weighs more than the path, and every edge adds at least 1. |
| Dijkstra.Relax | graph.h:276-287 | After relaxing `v -> w`, the pair `(D[w], N[w])` is the lexicographic minimum of the old labels and the candidate through `v`. `V[w]` becomes `v` exactly when the candidate wins, and `D[w]` never grows. An entry is pushed exactly when the distance strictly improves. Other vertices are unchanged. |
| Dijkstra.InitEstablishes | graph.h:250-264 | Cleared marks, `D = N = INFINITY` except `D[s] = N[s] = 0`, `V = -1`, and a heap holding only `(s, 0)` satisfy the run invariant. |
| Dijkstra.Initial | graph.h:258-264 | The initial lists have one entry per vertex and only the source is reached. |
| Dijkstra.PopUnvisited | graph.h:266-271 | The `do`/`while` loop only removes entries from the heap. Either it empties the heap, every removed entry names a visited vertex, and every reached vertex is finalised. Or it returns a least-key entry for an unvisited vertex, the heap keeps everything else that was in it when that entry was popped, and every entry removed before it names a visited vertex. Either way the run invariant holds. |
| Dijkstra.StalePop | graph.h:266-271 | Dropping an entry for an already visited vertex keeps the run invariant. |
| Dijkstra.LeastEntryIsExact | graph.h:266-271 | A least-key entry for an unvisited vertex carries exactly that vertex's current distance. |
| Dijkstra.VisitStep | graph.h:272-273 | Marking the popped vertex keeps the run invariant, and its labels are final. If its distance is `INFINITY`, the run is complete. |
| Dijkstra.VisitOptimal | graph.h:272 | The distance of the vertex being visited is no more than the weight of any path from `s` to it. |
| Dijkstra.VisitTieOptimal | graph.h:272 | Its bribe total is no more than that of any shortest path to it. |
| Dijkstra.RelaxStep | graph.h:276-287 | Relaxing one edge of the visited vertex, and pushing when the distance improves, keeps the run invariant. |
| Dijkstra.RelaxKeepsDone | graph.h:276-287 | Relaxation never changes a finalised vertex. |
| Dijkstra.RelaxNeighbors | graph.h:274-288 | Relaxing every edge out of the visited vertex, in ascending target order, keeps the heap valid and the run invariant. |
| Dijkstra.Frontier | graph.h:265-289 | Every path from `s` to a vertex that is not finalised reaches a vertex that is reached but not finalised. That vertex's distance is at most the weight of the path up to it. |
| Dijkstra.ClosedIsCorrect | graph.h:265-289 | When every reached vertex is finalised, the labels are shortest distances with least tie-broken bribes, and unreached vertices have no path. |
| Dijkstra.CountMark | graph.h:272 | Marking an unvisited vertex raises the visited count by one, so the outer `for` loop counts visits. |
| Dijkstra.CountBound | graph.h:265 | At most every vertex is visited, and `numVert` visits means every vertex is visited. |
| Dijkstra.ClosedMarks | graph.h:272 | Once the run is over, every vertex with a finite distance has been marked VISITED. |
| Dijkstra.TopIsLeast | graph.h:267-268 | `H.top()` has the least key of the heap. |
| Dijkstra.Dijkstra | graph.h:249-290 | Only the marks of `G` change. `D[s] = N[s] = 0` and `V[s] = -1`. Every reached vertex gets the least path weight from `s`, the least bribe total among paths of that weight, and a predecessor whose labels plus the edge give its own. An unreached vertex keeps `INFINITY`/`-1` and has no path from `s`. Every reached vertex is left marked VISITED. |
| Dijkstra.RouteIsShortest | graph.h:295-304 | After a run, the route `pathTrace` rebuilds is a shortest path from `s`. Its bribe total is the least among shortest paths. |

## Left out

- `makeGraph`, `findStartEnd` and `shortestPath` are left out. They read the graph from standard input and print the result, which is I/O. `iToCurrName` (graph.h:150-155) is left out with them: it is a linear search for a currency name, used only by those functions to turn names read from input into vertex indices.
- `Graph::print`, `MyHeap::print` and the `<<` operators are left out: console output. `Heap.Drain` models the `top`/`pop` order that `print` writes.
- The copy constructor and `operator=` of `MyHeap` are not modelled, because heaps here are values. In the source, the copy gets a buffer of `m_size` slots but the original's `m_maxsize`. `operator=` returns nothing. Neither is reached by the modelled operations except through the copy constructor. That copy is made inside `reserve`/`shrink_to_fit`, and by `print` (MyHeap.hpp:152), whose copy is only popped. In every case only the first `m_size` slots are read.
- `MyList` is modelled by `seq`, because it is only indexed storage.
- Float weights, currency values and distances are modelled as integers, with `INFINITY` as `Inf`. The model therefore covers inputs whose weights, bribe values and path sums are exact floats, for instance integers below 2^24. Beyond that the comparisons at graph.h:276 and graph.h:283 are decided on rounded sums. For example `D[v] + 1 == D[v]` once `D[v]` reaches 2^24, so the tie branch could relabel a vertex that is already visited. `Dijkstra.RelaxKeepsDone` rules this out only for exact arithmetic.
- `Dijkstra.Dijkstra`: the source builds the heap from a variable-length array `E[G.numEdges()]` and writes `E[0]` even when the graph has no edges. The model builds the heap from the one-element list `[(s, 0)]`, which is what the constructor reads.
- `Paths.PathTrace` returns the vertex list instead of the comma-separated currency names, because string concatenation adds nothing to the route. It requires the labels `Dijkstra` leaves behind and a reached target other than `start`. When `end == start` or `end` is unreached, `V[end]` is -1 and the source's first recursive call reads `V[-1]`. What that does depends on `MyList`, which is not part of this model. Only a `V` chain that cycles without reaching `start` makes the source recurse without end.
- `Graphs.NewGraph` takes a natural vertex count. A negative `numVert` in the source gives a graph with a negative count and empty lists, which the model does not represent.
- `Graphs.SetMark` and `Graphs.GetMark` use a two-valued `Mark`. The source's `setMark` stores any `int` and `getMark` returns it, but the program only ever stores `UNVISITED` (`clearMarks`) and `VISITED` (graph.h:272).
- `Heap.Lc`, `Heap.Rc`, `Heap.Build` and `Heap.Push` compute with unbounded integers. The C++ `int` products `2*n+1`, `2*n+2`, `m_size * 2` and `m_maxsize * 2` (MyHeap.hpp:25-26, 82, 136, 141) would overflow only past 2^30 elements. The program's heap holds at most one entry per relaxation, and it could not allocate such a buffer anyway.
- `Graphs.SetMark` requires an in-range vertex, because the source writes without checking the index.
- `Dijkstra.Dijkstra` requires a graph with non-negative weights and an exact edge counter, as every `setEdge` leaves it, and an in-range source.
- `Dijkstra.PopUnvisited` and `Dijkstra.RelaxNeighbors` take the graph before the marks changed and the source as ghost parameters, only to state the invariant.
- `Heap.Top` requires a non-empty heap, because the source reads slot 0 unchecked.
- `Heap.Reserve` requires a size no smaller than the contents. Every call in the source passes one.

=== FILE: costs.dfy ===
/**
  Path costs and the heap entries of Dijkstra's algorithm (graph.h). The source
  keeps costs in floats with `INFINITY` for "not reached"; here a cost is an
  integer or `Inf`, with IEEE semantics for the operations the algorithm uses:
  `Inf + x == Inf`, `Inf == Inf`, and nothing is less than `Inf` except a finite value.
 */
module Costs {
  import Heap

  datatype Ext = Fin(n: int) | Inf

  /** Adding a finite amount; infinity absorbs it. */
  function Add(a: Ext, x: int): (r: Ext)
    ensures r.Fin? <==> a.Fin?
    ensures a.Fin? ==> r.n - a.n == x
  {
    match a
    case Fin(n) => Fin(n + x)
    case Inf => Inf
  }

  /** Strict comparison `a < b`. */
  predicate Less(a: Ext, b: Ext)
  {
    match (a, b)
    case (Fin(x), Fin(y)) => x < y
    case (Fin(_), Inf) => true
    case (Inf, _) => false
  }

  /** `a <= b`, that is, not `b < a`. */
  predicate Le(a: Ext, b: Ext)
  {
    !Less(b, a)
  }

  /** Pairs (distance, secondary cost) compared lexicographically. */
  predicate LexLess(d1: Ext, n1: Ext, d2: Ext, n2: Ext)
  {
    Less(d1, d2) || (d1 == d2 && Less(n1, n2))
  }

  predicate LexLe(d1: Ext, n1: Ext, d2: Ext, n2: Ext)
  {
    !LexLess(d2, n2, d1, n1)
  }

  lemma LessIsStrictTotal(a: Ext, b: Ext, c: Ext)
    ensures !Less(a, a)
    ensures Less(a, b) ==> !Less(b, a)
    ensures Less(a, b) || a == b || Less(b, a)
    ensures Less(a, b) && Less(b, c) ==> Less(a, c)
  {
  }

  /** `DijkElem`: a vertex with the distance it was queued at. */
  datatype DijkElem = DijkElem(vertex: int, weight: Ext)

  /** `DDComp::prior`: the smaller distance comes first. */
  predicate DDPrior(x: DijkElem, y: DijkElem)
  {
    Less(x.weight, y.weight)
  }

  /** `DDComp` meets what the heap asks of an ordering. */
  lemma DDPriorIsStrictWeakOrder()
    ensures Heap.StrictWeakOrder(DDPrior)
  {
    forall x, y, z
      ensures DDPrior(x, y) ==> !DDPrior(y, x)
      ensures DDPrior(x, y) && DDPrior(y, z) ==> DDPrior(x, z)
      ensures !DDPrior(x, y) && !DDPrior(y, z) ==> !DDPrior(x, z)
    {
      LessIsStrictTotal(x.weight, y.weight, z.weight);
    }
  }
}

=== FILE: dijkstra.dfy ===
/**
  `Dijkstra` of graph.h: lazy-deletion Dijkstra over `MyHeap<DijkElem, DDComp>`
  with a secondary "bribe" cost that breaks ties between equally short paths.

  The distance list `D`, bribe list `N` and predecessor list `V` are values of
  type `seq`; the marks `mk` live in the graph, as in the source, and `Q` is the
  multiset of entries in the heap. Vertex ids are integers, `-1` meaning "no
  predecessor".
 */
module Dijkstra {
  import opened Graphs
  import opened Costs
  import opened Paths
  import Heap

  // ---------------------------------------------------------------------------
  // One relaxation step
  // ---------------------------------------------------------------------------

  /** The labels after relaxing one edge, and whether a heap entry is pushed. */
  datatype Relaxation = Relaxation(D: seq<Ext>, N: seq<Ext>, V: seq<int>, push: bool)

  /** Relaxing the edge `v -> w` of weight `wt` leaving a vertex of bribe value `cur`:
      a strictly shorter distance replaces D, N and V and pushes an entry; an equal
      distance with a strictly smaller bribe replaces only N and V. In other words
      `(D[w], N[w])` becomes the lexicographic minimum of itself and the candidate
      reached through `v`, and V follows the candidate exactly when it wins. */
  function Relax(D: seq<Ext>, N: seq<Ext>, V: seq<int>, v: nat, w: nat, wt: int, cur: int): (r: Relaxation)
    requires |N| == |D| && |V| == |D| && v < |D| && w < |D|
    ensures |r.D| == |D| && |r.N| == |D| && |r.V| == |D|
    ensures forall u :: 0 <= u < |D| && u != w ==> r.D[u] == D[u] && r.N[u] == N[u] && r.V[u] == V[u]
    ensures LexLess(Add(D[v], wt), Add(N[v], cur), D[w], N[w]) ==>
      r.D[w] == Add(D[v], wt) && r.N[w] == Add(N[v], cur) && r.V[w] == v
    ensures !LexLess(Add(D[v], wt), Add(N[v], cur), D[w], N[w]) ==>
      r.D[w] == D[w] && r.N[w] == N[w] && r.V[w] == V[w]
    ensures LexLe(r.D[w], r.N[w], D[w], N[w]) && Le(r.D[w], D[w])
    ensures r.push <==> Less(Add(D[v], wt), D[w])
    ensures r.push ==> r.D[w] == Add(D[v], wt)
  {
    var nd := Add(D[v], wt);
    var nn := Add(N[v], cur);
    if Less(nd, D[w]) then
      Relaxation(D[w := nd], N[w := nn], V[w := v], true)
    else if D[w] == nd && Less(nn, N[w]) then
      Relaxation(D, N[w := nn], V[w := v], false)
    else
      Relaxation(D, N, V, false)
  }

  // ---------------------------------------------------------------------------
  // The invariant of a run
  // ---------------------------------------------------------------------------

  /** The lists have one entry per vertex. */
  ghost predicate Sized(g: Graph, D: seq<Ext>, N: seq<Ext>, V: seq<int>)
  {
    WellFormed(g) && |D| == g.vertices && |N| == g.vertices && |V| == g.vertices
  }

  /** A vertex is finalised: visited with a finite distance. */
  ghost predicate Done(mk: seq<Mark>, D: seq<Ext>, u: int)
  {
    0 <= u < |mk| && u < |D| && mk[u] == Visited && D[u].Fin?
  }

  /** Label sanity: the source has distance and bribe 0 and no predecessor; finite
      distances are non-negative; D and N are finite together; unreached vertices
      have no predecessor. */
  ghost predicate Labels(g: Graph, s: int, D: seq<Ext>, N: seq<Ext>, V: seq<int>)
    requires Sized(g, D, N, V) && InRange(g, s)
  {
    && D[s] == Fin(0) && N[s] == Fin(0) && V[s] == -1
    && (forall u :: 0 <= u < g.vertices && D[u].Fin? ==> D[u].n >= 0)
    && (forall u :: 0 <= u < g.vertices ==> (D[u].Fin? <==> N[u].Fin?))
    && (forall u {:trigger V[u]} :: 0 <= u < g.vertices && D[u].Inf? ==> V[u] == -1)
  }

  /** Every reached vertex other than the source hangs off a finalised predecessor
      whose labels plus the connecting edge give exactly its own. */
  ghost predicate Tree(g: Graph, s: int, mk: seq<Mark>, D: seq<Ext>, N: seq<Ext>, V: seq<int>)
    requires Sized(g, D, N, V)
  {
    forall u {:trigger V[u]} :: 0 <= u < g.vertices && u != s && D[u].Fin? ==>
      && Edge(g, V[u], u)
      && Done(mk, D, V[u])
      && D[u].n == D[V[u]].n + W(g, V[u], u)
      && N[u] == Add(N[V[u]], Cur(g, V[u]))
  }

  /** Every reached, unvisited vertex has an up-to-date entry in the heap. */
  ghost predicate Queued(g: Graph, mk: seq<Mark>, D: seq<Ext>, Q: multiset<DijkElem>)
    requires |mk| == g.vertices && |D| == g.vertices
  {
    forall u :: 0 <= u < g.vertices && mk[u] == Unvisited && D[u].Fin? ==> DijkElem(u, D[u]) in Q
  }

  /** Heap entries name vertices and are never below the current distance (they
      may be stale), nor below the distance of any finalised vertex. */
  ghost predicate Entries(g: Graph, mk: seq<Mark>, D: seq<Ext>, Q: multiset<DijkElem>)
    requires |D| == g.vertices
  {
    && (forall e | e in Q :: InRange(g, e.vertex) && Le(D[e.vertex], e.weight))
    && (forall v, e {:trigger Done(mk, D, v), e.weight} | Done(mk, D, v) && e in Q :: Le(D[v], e.weight))
  }

  /** Every edge leaving a finalised vertex has been relaxed, except those of the
      vertex `x` being processed, which are relaxed below `w`. */
  ghost predicate Relaxed(g: Graph, mk: seq<Mark>, D: seq<Ext>, N: seq<Ext>, x: int, w: int)
    requires WellFormed(g) && |D| == g.vertices && |N| == g.vertices
  {
    forall v, u {:trigger Edge(g, v, u)} :: Done(mk, D, v) && Edge(g, v, u) && (v == x ==> u < w) ==>
      LexLe(D[u], N[u], Add(D[v], W(g, v, u)), Add(N[v], Cur(g, v)))
  }

  /** Finalised distances are shortest. */
  ghost predicate Optimal(g: Graph, s: int, mk: seq<Mark>, D: seq<Ext>)
  {
    forall u, p {:trigger IsPath(g, p, s, u)} :: Done(mk, D, u) && IsPath(g, p, s, u) ==> D[u].n <= PathWeight(g, p)
  }

  /** Finalised bribes are least among the shortest paths. */
  ghost predicate TieOptimal(g: Graph, s: int, mk: seq<Mark>, D: seq<Ext>, N: seq<Ext>)
    requires |N| == |D|
  {
    forall u, p {:trigger IsPath(g, p, s, u)} :: Done(mk, D, u) && IsPath(g, p, s, u) && PathWeight(g, p) == D[u].n ==>
      Le(N[u], Fin(SecondaryCost(g, p)))
  }

  ghost predicate Inv(g: Graph, s: int, mk: seq<Mark>, D: seq<Ext>, N: seq<Ext>, V: seq<int>,
                      Q: multiset<DijkElem>, x: int, w: int)
  {
    && Valid(g) && InRange(g, s) && |mk| == g.vertices && Sized(g, D, N, V)
    && Labels(g, s, D, N, V)
    && Tree(g, s, mk, D, N, V)
    && Queued(g, mk, D, Q)
    && Entries(g, mk, D, Q)
    && Relaxed(g, mk, D, N, x, w)
    && Optimal(g, s, mk, D)
    && TieOptimal(g, s, mk, D, N)
  }

  /** A visited vertex has a finite distance (true between iterations). */
  ghost predicate MarkedAreDone(mk: seq<Mark>, D: seq<Ext>)
  {
    forall u :: 0 <= u < |mk| && mk[u] == Visited ==> Done(mk, D, u)
  }

  /** While `x` is being processed, no finalised distance exceeds its own. */
  ghost predicate Frozen(mk: seq<Mark>, D: seq<Ext>, x: int)
  {
    Done(mk, D, x) && forall v {:trigger Done(mk, D, v)} :: Done(mk, D, v) ==> D[v].n <= D[x].n
  }

  /** The run is over: every vertex that is not finalised is unreached. */
  ghost predicate Closed(mk: seq<Mark>, D: seq<Ext>)
  {
    forall u :: 0 <= u < |D| && !Done(mk, D, u) ==> D[u].Inf?
  }

  /** What the algorithm promises on return. */
  ghost predicate ShortestPaths(g: Graph, s: int, D: seq<Ext>, N: seq<Ext>, V: seq<int>)
  {
    && PredecessorTree(g, s, D, N, V)
    && V[s] == -1
    && (forall u, p {:trigger IsPath(g, p, s, u)} :: 0 <= u < g.vertices && D[u].Fin? && IsPath(g, p, s, u) ==>
          D[u].n <= PathWeight(g, p))
    && (forall u, p {:trigger IsPath(g, p, s, u)} :: 0 <= u < g.vertices && D[u].Fin? && IsPath(g, p, s, u) && PathWeight(g, p) == D[u].n ==>
          Le(N[u], Fin(SecondaryCost(g, p))))
    && (forall u :: 0 <= u < g.vertices && D[u].Inf? ==> V[u] == -1 && N[u].Inf?)
    && (forall u, p :: 0 <= u < g.vertices && D[u].Inf? ==> !IsPath(g, p, s, u))
  }

  // ---------------------------------------------------------------------------
  // Counting visited vertices
  // ---------------------------------------------------------------------------

  function CountVisited(mk: seq<Mark>): nat
  {
    if |mk| == 0 then 0 else CountVisited(mk[..|mk| - 1]) + (if mk[|mk| - 1] == Visited then 1 else 0)
  }

  /** Marking an unvisited vertex adds exactly one to the count. */
  lemma {:induction false} CountMark(mk: seq<Mark>, i: nat)
    requires i < |mk| && mk[i] == Unvisited
    ensures CountVisited(mk[i := Visited]) == CountVisited(mk) + 1
    decreases |mk|
  {
    var last := |mk| - 1;
    if i < last {
      assert mk[i := Visited][..last] == mk[..last][i := Visited];
      CountMark(mk[..last], i);
    } else {
      assert mk[i := Visited][..last] == mk[..last];
    }
  }

  /** At most every vertex is visited, and a full count means all are. */
  lemma {:induction false} CountBound(mk: seq<Mark>)
    ensures CountVisited(mk) <= |mk|
    ensures CountVisited(mk) == |mk| ==> forall i :: 0 <= i < |mk| ==> mk[i] == Visited
    decreases |mk|
  {
    if |mk| > 0 {
      var last := |mk| - 1;
      CountBound(mk[..last]);
      if CountVisited(mk) == |mk| {
        assert CountVisited(mk[..last]) == last;
        forall i | 0 <= i < |mk|
          ensures mk[i] == Visited
        {
          if i < last {
            assert mk[..last][i] == mk[i];
          }
        }
      }
    }
  }

  lemma {:induction false} CountNone(mk: seq<Mark>)
    requires forall i :: 0 <= i < |mk| ==> mk[i] == Unvisited
    ensures CountVisited(mk) == 0
    decreases |mk|
  {
    if |mk| > 0 {
      CountNone(mk[..|mk| - 1]);
    }
  }

  // ---------------------------------------------------------------------------
  // The proof steps
  // ---------------------------------------------------------------------------

  lemma LexLeTrans(d1: Ext, n1: Ext, d2: Ext, n2: Ext, d3: Ext, n3: Ext)
    requires LexLe(d1, n1, d2, n2) && LexLe(d2, n2, d3, n3)
    ensures LexLe(d1, n1, d3, n3)
  {
    LessIsStrictTotal(d1, d2, d3);
    LessIsStrictTotal(n1, n2, n3);
    LessIsStrictTotal(d3, d2, d1);
    LessIsStrictTotal(n3, n2, n1);
  }

  /** The labels right after initialisation: only the source is reached. */
  function Initial(n: nat, s: nat): (r: (seq<Ext>, seq<Ext>, seq<int>))
    requires s < n
    ensures |r.0| == n && |r.1| == n && |r.2| == n
    ensures r.0[s] == Fin(0) && r.1[s] == Fin(0)
    ensures forall u :: 0 <= u < n && u != s ==> r.0[u] == Inf && r.1[u] == Inf
    ensures forall u :: 0 <= u < n ==> r.2[u] == -1
  {
    (seq(n, _ => Inf)[s := Fin(0)], seq(n, _ => Inf)[s := Fin(0)], seq(n, _ => -1))
  }

  /** Initialisation establishes the invariant with nothing visited. */
  lemma InitEstablishes(g: Graph, s: int, mk: seq<Mark>, D: seq<Ext>, N: seq<Ext>, V: seq<int>)
    requires Valid(g) && InRange(g, s)
    requires |mk| == g.vertices && forall u :: 0 <= u < |mk| ==> mk[u] == Unvisited
    requires D == Initial(g.vertices, s).0 && N == Initial(g.vertices, s).1 && V == Initial(g.vertices, s).2
    ensures Inv(g, s, mk, D, N, V, multiset{DijkElem(s, Fin(0))}, -1, 0) && MarkedAreDone(mk, D)
  {
    forall u | 0 <= u < g.vertices && mk[u] == Unvisited && D[u].Fin?
      ensures DijkElem(u, D[u]) in multiset{DijkElem(s, Fin(0))}
    {
      assert u == s;
    }
  }

  /** The shortest-path frontier: on a path from the source to a vertex that is not
      finalised, some vertex is reached but not finalised, and its distance is at
      most the weight of the path up to it. It is the first vertex of the path that
      is not finalised: the source, or the target of a relaxed edge. */
  lemma Frontier(g: Graph, s: int, mk: seq<Mark>, D: seq<Ext>, N: seq<Ext>, V: seq<int>,
                 p: seq<int>, t: int) returns (j: nat)
    requires InRange(g, s) && Sized(g, D, N, V) && D[s] == Fin(0)
    requires Relaxed(g, mk, D, N, -1, 0) && Optimal(g, s, mk, D)
    requires IsPath(g, p, s, t) && !Done(mk, D, t)
    ensures j < |p| && InRange(g, p[j]) && IsPath(g, p[..j + 1], s, p[j])
    ensures !Done(mk, D, p[j]) && D[p[j]].Fin? && D[p[j]].n <= PathWeight(g, p[..j + 1])
  {
    j := 0;
    while Done(mk, D, p[j])
      invariant j < |p| && (j > 0 ==> Done(mk, D, p[j - 1]))
      decreases |p| - j
    {
      j := j + 1;
    }
    if j == 0 {
      assert p[..1] == [s];
    } else {
      var q := p[..j];
      PrefixPath(g, p, s, t, j);
      RelaxedEdgeBound(g, s, mk, D, N, V, q, p[j - 1], p[j]);
      assert q + [p[j]] == p[..j + 1];
    }
  }

  /** The last edge of a path out of a finalised vertex has been relaxed, so the
      target's distance is bounded by the path's weight. */
  lemma RelaxedEdgeBound(g: Graph, s: int, mk: seq<Mark>, D: seq<Ext>, N: seq<Ext>, V: seq<int>,
                         q: seq<int>, y: int, t: int)
    requires Sized(g, D, N, V)
    requires Relaxed(g, mk, D, N, -1, 0) && Optimal(g, s, mk, D)
    requires IsPath(g, q, s, y) && Done(mk, D, y) && Edge(g, y, t)
    ensures IsPath(g, q + [t], s, t) && D[t].Fin?
    ensures D[t].n <= PathWeight(g, q + [t])
  {
    ExtendPath(g, q, s, y, t);
    assert D[y].n <= PathWeight(g, q);
    assert LexLe(D[t], N[t], Add(D[y], W(g, y, t)), Add(N[y], Cur(g, y)));
  }

  /** Popping an entry for a vertex that is already visited changes nothing else. */
  lemma StalePop(g: Graph, s: int, mk: seq<Mark>, D: seq<Ext>, N: seq<Ext>, V: seq<int>,
                 Q: multiset<DijkElem>, e: DijkElem)
    requires Inv(g, s, mk, D, N, V, Q, -1, 0)
    requires e in Q && InRange(g, e.vertex) && mk[e.vertex] == Visited
    ensures Inv(g, s, mk, D, N, V, Q - multiset{e}, -1, 0)
  {
    forall u | 0 <= u < g.vertices && mk[u] == Unvisited && D[u].Fin?
      ensures DijkElem(u, D[u]) in Q - multiset{e}
    {
      assert DijkElem(u, D[u]) in Q;
    }
  }

  /** The least entry of an unvisited vertex carries its true distance. */
  lemma LeastEntryIsExact(g: Graph, s: int, mk: seq<Mark>, D: seq<Ext>, N: seq<Ext>, V: seq<int>,
                          Q: multiset<DijkElem>, e: DijkElem)
    requires Inv(g, s, mk, D, N, V, Q, -1, 0)
    requires e in Q && forall f | f in Q :: Le(e.weight, f.weight)
    requires InRange(g, e.vertex) && mk[e.vertex] == Unvisited
    ensures D[e.vertex].Fin? ==> e.weight == D[e.vertex]
    ensures forall u :: 0 <= u < g.vertices && mk[u] == Unvisited && D[u].Fin? ==> Le(D[e.vertex], D[u])
  {
    forall u | 0 <= u < g.vertices && mk[u] == Unvisited && D[u].Fin?
      ensures Le(D[e.vertex], D[u]) && Le(e.weight, D[u])
    {
      assert DijkElem(u, D[u]) in Q;
      LessIsStrictTotal(D[e.vertex], e.weight, D[u]);
    }
    if D[e.vertex].Fin? {
      assert DijkElem(e.vertex, D[e.vertex]) in Q;
    }
  }

  /** Visiting the vertex `x` of the least entry finalises a shortest distance. */
  lemma VisitOptimal(g: Graph, s: int, mk: seq<Mark>, D: seq<Ext>, N: seq<Ext>, V: seq<int>,
                     Q: multiset<DijkElem>, e: DijkElem)
    requires Inv(g, s, mk, D, N, V, Q, -1, 0)
    requires e in Q && forall f | f in Q :: Le(e.weight, f.weight)
    requires InRange(g, e.vertex) && mk[e.vertex] == Unvisited
    ensures Optimal(g, s, mk[e.vertex := Visited], D)
  {
    var x := e.vertex;
    LeastEntryIsExact(g, s, mk, D, N, V, Q, e);
    forall u, p | Done(mk[x := Visited], D, u) && IsPath(g, p, s, u)
      ensures D[u].n <= PathWeight(g, p)
    {
      if u == x {
        var j := Frontier(g, s, mk, D, N, V, p, u);
        PrefixWeight(g, p, s, u, j + 1);
      } else {
        assert Done(mk, D, u);
      }
    }
  }

  /** Visiting the vertex of the least entry finalises a least bribe among
      shortest paths: on a shortest path to it, the vertex before it is finalised
      and was relaxed towards it. */
  lemma VisitTieOptimal(g: Graph, s: int, mk: seq<Mark>, D: seq<Ext>, N: seq<Ext>, V: seq<int>,
                        Q: multiset<DijkElem>, e: DijkElem)
    requires Inv(g, s, mk, D, N, V, Q, -1, 0)
    requires e in Q && forall f | f in Q :: Le(e.weight, f.weight)
    requires InRange(g, e.vertex) && mk[e.vertex] == Unvisited
    ensures TieOptimal(g, s, mk[e.vertex := Visited], D, N)
  {
    var x := e.vertex;
    forall u, p | Done(mk[x := Visited], D, u) && IsPath(g, p, s, u) && PathWeight(g, p) == D[u].n
      ensures Le(N[u], Fin(SecondaryCost(g, p)))
    {
      if u != x {
        assert Done(mk, D, u);
      } else if |p| == 1 {
        assert u == s;
      } else {
        TieStep(g, s, mk, D, N, V, Q, e, p);
      }
    }
  }

  /** On a path to the vertex of the least entry that is shorter than its
      distance, the vertex before it is already finalised: otherwise the frontier
      would hold an entry below the least one. */
  lemma PredecessorIsDone(g: Graph, s: int, mk: seq<Mark>, D: seq<Ext>, N: seq<Ext>, V: seq<int>,
                          Q: multiset<DijkElem>, e: DijkElem, q: seq<int>, y: int)
    requires Inv(g, s, mk, D, N, V, Q, -1, 0)
    requires e in Q && forall f | f in Q :: Le(e.weight, f.weight)
    requires InRange(g, e.vertex) && mk[e.vertex] == Unvisited && D[e.vertex].Fin?
    requires IsPath(g, q, s, y) && PathWeight(g, q) < D[e.vertex].n
    ensures Done(mk, D, y)
  {
    LeastEntryIsExact(g, s, mk, D, N, V, Q, e);
    if !Done(mk, D, y) {
      var j := Frontier(g, s, mk, D, N, V, q, y);
      PrefixWeight(g, q, s, y, j + 1);
      assert false;
    }
  }

  lemma TieStep(g: Graph, s: int, mk: seq<Mark>, D: seq<Ext>, N: seq<Ext>, V: seq<int>,
                Q: multiset<DijkElem>, e: DijkElem, p: seq<int>)
    requires Inv(g, s, mk, D, N, V, Q, -1, 0)
    requires e in Q && forall f | f in Q :: Le(e.weight, f.weight)
    requires InRange(g, e.vertex) && mk[e.vertex] == Unvisited && D[e.vertex].Fin?
    requires |p| >= 2 && IsPath(g, p, s, e.vertex) && PathWeight(g, p) == D[e.vertex].n
    ensures Le(N[e.vertex], Fin(SecondaryCost(g, p)))
  {
    var x := e.vertex;
    var q := p[..|p| - 1];
    var y := p[|p| - 2];
    PathPrefix(g, p, s, x);
    assert W(g, y, x) > 0;
    PredecessorIsDone(g, s, mk, D, N, V, Q, e, q, y);
    assert D[y].n <= PathWeight(g, q);
    assert LexLe(D[x], N[x], Add(D[y], W(g, y, x)), Add(N[y], Cur(g, y)));
    assert D[y].n == PathWeight(g, q);
    assert Le(N[y], Fin(SecondaryCost(g, q)));
  }

  /** Removing the least entry and visiting its vertex keeps the heap entries
      consistent with the labels. */
  lemma VisitKeepsQueue(g: Graph, s: int, mk: seq<Mark>, D: seq<Ext>, N: seq<Ext>, V: seq<int>,
                        Q: multiset<DijkElem>, e: DijkElem)
    requires Inv(g, s, mk, D, N, V, Q, -1, 0)
    requires e in Q && forall f | f in Q :: Le(e.weight, f.weight)
    requires InRange(g, e.vertex) && mk[e.vertex] == Unvisited
    ensures Queued(g, mk[e.vertex := Visited], D, Q - multiset{e})
    ensures Entries(g, mk[e.vertex := Visited], D, Q - multiset{e})
  {
    var x := e.vertex;
    var mk' := mk[x := Visited];
    forall u | 0 <= u < g.vertices && mk'[u] == Unvisited && D[u].Fin?
      ensures DijkElem(u, D[u]) in Q - multiset{e}
    {
      assert DijkElem(u, D[u]) in Q;
    }
    forall v, f | Done(mk', D, v) && f in Q - multiset{e}
      ensures Le(D[v], f.weight)
    {
      if v == x {
        LessIsStrictTotal(D[x], e.weight, f.weight);
      } else {
        assert Done(mk, D, v);
      }
    }
  }

  /** Visiting the vertex of the least entry keeps the invariant; if its distance is
      infinite the run is over. */
  lemma VisitStep(g: Graph, s: int, mk: seq<Mark>, D: seq<Ext>, N: seq<Ext>, V: seq<int>,
                  Q: multiset<DijkElem>, e: DijkElem)
    requires Inv(g, s, mk, D, N, V, Q, -1, 0) && MarkedAreDone(mk, D)
    requires e in Q && forall f | f in Q :: Le(e.weight, f.weight)
    requires InRange(g, e.vertex) && mk[e.vertex] == Unvisited
    ensures Inv(g, s, mk[e.vertex := Visited], D, N, V, Q - multiset{e}, e.vertex, 0)
    ensures D[e.vertex].Fin? ==> Frozen(mk[e.vertex := Visited], D, e.vertex)
    ensures D[e.vertex].Fin? ==> MarkedAreDone(mk[e.vertex := Visited], D)
    ensures D[e.vertex].Inf? ==> Inv(g, s, mk[e.vertex := Visited], D, N, V, Q - multiset{e}, -1, 0)
    ensures D[e.vertex].Inf? ==> Closed(mk[e.vertex := Visited], D)
  {
    var x := e.vertex;
    var mk' := mk[x := Visited];
    var Q' := Q - multiset{e};
    VisitOptimal(g, s, mk, D, N, V, Q, e);
    VisitTieOptimal(g, s, mk, D, N, V, Q, e);
    LeastEntryIsExact(g, s, mk, D, N, V, Q, e);
    VisitKeepsQueue(g, s, mk, D, N, V, Q, e);
    assert Tree(g, s, mk', D, N, V) by {
      forall u | 0 <= u < g.vertices && u != s && D[u].Fin?
        ensures Done(mk', D, V[u])
      {
        assert Done(mk, D, V[u]);
      }
    }
    assert Relaxed(g, mk', D, N, x, 0) by {
      forall v, u | Done(mk', D, v) && Edge(g, v, u) && (v == x ==> u < 0)
        ensures LexLe(D[u], N[u], Add(D[v], W(g, v, u)), Add(N[v], Cur(g, v)))
      {
        assert Done(mk, D, v);
      }
    }
    if D[x].Fin? {
      forall v | Done(mk', D, v)
        ensures D[v].n <= D[x].n
      {
        if v != x {
          assert Done(mk, D, v);
        }
      }
    } else {
      assert Closed(mk', D);
    }
  }

  /** Relaxing one edge of the vertex `x` being processed keeps the invariant. */
  lemma RelaxStep(g: Graph, s: int, mk: seq<Mark>, D: seq<Ext>, N: seq<Ext>, V: seq<int>,
                  Q: multiset<DijkElem>, x: int, w: int, rl: Relaxation, Q': multiset<DijkElem>)
    requires Inv(g, s, mk, D, N, V, Q, x, w) && MarkedAreDone(mk, D) && Frozen(mk, D, x)
    requires InRange(g, w) && Edge(g, x, w)
    requires rl == Relax(D, N, V, x, w, W(g, x, w), Cur(g, x))
    requires Q' == if rl.push then Q + multiset{DijkElem(w, rl.D[w])} else Q
    ensures Inv(g, s, mk, rl.D, rl.N, rl.V, Q', x, w + 1)
    ensures MarkedAreDone(mk, rl.D) && Frozen(mk, rl.D, x)
  {
    RelaxKeepsDone(g, mk, D, N, V, x, w, rl);
    RelaxKeepsLabels(g, s, mk, D, N, V, x, w, rl);
    RelaxKeepsTree(g, s, mk, D, N, V, x, w, rl);
    RelaxKeepsQueue(g, s, mk, D, N, V, Q, x, w, rl, Q');
    RelaxKeepsRelaxed(g, s, mk, D, N, V, x, w, rl);
    RelaxKeepsOptimal(g, s, mk, D, N, V, x, w, rl);
  }

  /** A finalised vertex is never improved, since its distance is at most
      D[x] < D[x] + W; so the finalised vertices and their labels stay put. */
  lemma RelaxKeepsDone(g: Graph, mk: seq<Mark>, D: seq<Ext>, N: seq<Ext>, V: seq<int>,
                       x: int, w: int, rl: Relaxation)
    requires Valid(g) && Sized(g, D, N, V) && |mk| == g.vertices
    requires MarkedAreDone(mk, D) && Frozen(mk, D, x)
    requires InRange(g, w) && InRange(g, x) && Edge(g, x, w)
    requires rl == Relax(D, N, V, x, w, W(g, x, w), Cur(g, x))
    ensures W(g, x, w) > 0
    ensures Done(mk, D, w) ==> rl.D[w] == D[w] && rl.N[w] == N[w] && rl.V[w] == V[w]
    ensures forall u :: Done(mk, rl.D, u) <==> Done(mk, D, u)
  {
    forall u
      ensures Done(mk, rl.D, u) <==> Done(mk, D, u)
    {
      if u == w && mk[w] == Visited {
        assert Done(mk, D, w);
      }
    }
  }

  lemma RelaxKeepsQueue(g: Graph, s: int, mk: seq<Mark>, D: seq<Ext>, N: seq<Ext>, V: seq<int>,
                        Q: multiset<DijkElem>, x: int, w: int, rl: Relaxation, Q': multiset<DijkElem>)
    requires Valid(g) && |mk| == g.vertices && Sized(g, D, N, V)
    requires Queued(g, mk, D, Q) && Entries(g, mk, D, Q) && Frozen(mk, D, x)
    requires InRange(g, w) && InRange(g, x) && W(g, x, w) > 0
    requires rl == Relax(D, N, V, x, w, W(g, x, w), Cur(g, x))
    requires Q' == if rl.push then Q + multiset{DijkElem(w, rl.D[w])} else Q
    requires forall u :: Done(mk, rl.D, u) <==> Done(mk, D, u)
    ensures Queued(g, mk, rl.D, Q') && Entries(g, mk, rl.D, Q')
  {
    forall f | f in Q'
      ensures InRange(g, f.vertex) && Le(rl.D[f.vertex], f.weight)
    {
      if f in Q {
        LessIsStrictTotal(rl.D[f.vertex], D[f.vertex], f.weight);
      }
    }
    forall v, f | Done(mk, rl.D, v) && f in Q'
      ensures Le(rl.D[v], f.weight)
    {
      assert Done(mk, D, v);
    }
  }

  lemma RelaxKeepsOptimal(g: Graph, s: int, mk: seq<Mark>, D: seq<Ext>, N: seq<Ext>, V: seq<int>,
                          x: int, w: int, rl: Relaxation)
    requires Valid(g) && Sized(g, D, N, V) && Optimal(g, s, mk, D) && TieOptimal(g, s, mk, D, N)
    requires InRange(g, w) && InRange(g, x)
    requires rl == Relax(D, N, V, x, w, W(g, x, w), Cur(g, x))
    requires Done(mk, D, w) ==> rl.D[w] == D[w] && rl.N[w] == N[w] && rl.V[w] == V[w]
    requires forall u :: Done(mk, rl.D, u) <==> Done(mk, D, u)
    ensures Optimal(g, s, mk, rl.D) && TieOptimal(g, s, mk, rl.D, rl.N)
  {
    forall u, p | Done(mk, rl.D, u) && IsPath(g, p, s, u)
      ensures rl.D[u].n <= PathWeight(g, p)
    {
      assert Done(mk, D, u);
    }
    forall u, p | Done(mk, rl.D, u) && IsPath(g, p, s, u) && PathWeight(g, p) == rl.D[u].n
      ensures Le(rl.N[u], Fin(SecondaryCost(g, p)))
    {
      assert Done(mk, D, u);
    }
  }

  lemma RelaxKeepsLabels(g: Graph, s: int, mk: seq<Mark>, D: seq<Ext>, N: seq<Ext>, V: seq<int>,
                         x: int, w: int, rl: Relaxation)
    requires Valid(g) && InRange(g, s) && Sized(g, D, N, V) && Labels(g, s, D, N, V)
    requires InRange(g, w) && InRange(g, x) && W(g, x, w) > 0 && D[x].Fin?
    requires rl == Relax(D, N, V, x, w, W(g, x, w), Cur(g, x))
    ensures Sized(g, rl.D, rl.N, rl.V) && Labels(g, s, rl.D, rl.N, rl.V)
  {
  }

  lemma RelaxKeepsTree(g: Graph, s: int, mk: seq<Mark>, D: seq<Ext>, N: seq<Ext>, V: seq<int>,
                       x: int, w: int, rl: Relaxation)
    requires Valid(g) && InRange(g, s) && |mk| == g.vertices && Sized(g, D, N, V)
    requires Tree(g, s, mk, D, N, V) && Done(mk, D, x)
    requires InRange(g, w) && Edge(g, x, w)
    requires rl == Relax(D, N, V, x, w, W(g, x, w), Cur(g, x))
    requires Done(mk, D, w) ==> rl.D[w] == D[w] && rl.N[w] == N[w] && rl.V[w] == V[w]
    requires forall u :: Done(mk, rl.D, u) <==> Done(mk, D, u)
    ensures Sized(g, rl.D, rl.N, rl.V) && Tree(g, s, mk, rl.D, rl.N, rl.V)
  {
    var same := rl.D[w] == D[w] && rl.N[w] == N[w] && rl.V[w] == V[w];
    forall u | 0 <= u < g.vertices && u != s && rl.D[u].Fin?
      ensures Edge(g, rl.V[u], u) && Done(mk, rl.D, rl.V[u])
      ensures rl.D[u].n == rl.D[rl.V[u]].n + W(g, rl.V[u], u)
      ensures rl.N[u] == Add(rl.N[rl.V[u]], Cur(g, rl.V[u]))
    {
      if u != w || same {
        var p := V[u];
        assert rl.V[u] == p && Done(mk, D, p);
        assert p != w || same;
        assert rl.D[p] == D[p] && rl.N[p] == N[p];
      } else {
        assert rl.V[w] == x;
        assert x != w;
        assert rl.D[x] == D[x] && rl.N[x] == N[x];
      }
    }
  }

  lemma RelaxKeepsRelaxed(g: Graph, s: int, mk: seq<Mark>, D: seq<Ext>, N: seq<Ext>, V: seq<int>,
                          x: int, w: int, rl: Relaxation)
    requires Valid(g) && Sized(g, D, N, V) && Relaxed(g, mk, D, N, x, w)
    requires InRange(g, w) && InRange(g, x) && Edge(g, x, w)
    requires rl == Relax(D, N, V, x, w, W(g, x, w), Cur(g, x))
    requires Done(mk, D, w) ==> rl.D[w] == D[w] && rl.N[w] == N[w] && rl.V[w] == V[w]
    requires forall u :: Done(mk, rl.D, u) <==> Done(mk, D, u)
    ensures Relaxed(g, mk, rl.D, rl.N, x, w + 1)
  {
    forall v, u | Done(mk, rl.D, v) && Edge(g, v, u) && (v == x ==> u < w + 1)
      ensures LexLe(rl.D[u], rl.N[u], Add(rl.D[v], W(g, v, u)), Add(rl.N[v], Cur(g, v)))
    {
      assert Done(mk, D, v);
      if u == w && v != x {
        LexLeTrans(rl.D[u], rl.N[u], D[u], N[u], Add(D[v], W(g, v, u)), Add(N[v], Cur(g, v)));
      } else if u == w {
        LessIsStrictTotal(D[u], Add(D[v], W(g, v, u)), rl.D[u]);
        LessIsStrictTotal(N[u], Add(N[v], Cur(g, v)), rl.N[u]);
      }
    }
  }

  /** Skipping indices that carry no edge leaves the relaxation bound valid. */
  lemma SkipNonEdges(g: Graph, s: int, mk: seq<Mark>, D: seq<Ext>, N: seq<Ext>, V: seq<int>,
                     Q: multiset<DijkElem>, x: int, w: int, w': int)
    requires Inv(g, s, mk, D, N, V, Q, x, w) && w <= w'
    requires forall j :: w <= j < w' && InRange(g, j) ==> !Edge(g, x, j)
    ensures Inv(g, s, mk, D, N, V, Q, x, w')
  {
  }

  /** An empty heap with every visited vertex finalised ends the run. */
  lemma EmptyHeapCloses(g: Graph, s: int, mk: seq<Mark>, D: seq<Ext>, N: seq<Ext>, V: seq<int>)
    requires Inv(g, s, mk, D, N, V, multiset{}, -1, 0) && MarkedAreDone(mk, D)
    ensures Closed(mk, D)
  {
  }

  /** Having visited every vertex ends the run. */
  lemma AllVisitedCloses(g: Graph, s: int, mk: seq<Mark>, D: seq<Ext>)
    requires |mk| == |D| && MarkedAreDone(mk, D) && CountVisited(mk) == |mk|
    ensures Closed(mk, D)
  {
    CountBound(mk);
  }

  /** A closed run has computed shortest paths with tie-broken bribes. */
  lemma ClosedIsCorrect(g: Graph, s: int, mk: seq<Mark>, D: seq<Ext>, N: seq<Ext>, V: seq<int>,
                        Q: multiset<DijkElem>)
    requires Inv(g, s, mk, D, N, V, Q, -1, 0) && Closed(mk, D)
    ensures ShortestPaths(g, s, D, N, V)
  {
    forall u | 0 <= u < g.vertices && u != s && D[u].Fin?
      ensures D[V[u]].Fin?
    {
      assert Done(mk, D, V[u]);
    }
    forall u, p | 0 <= u < g.vertices && D[u].Fin? && IsPath(g, p, s, u)
      ensures D[u].n <= PathWeight(g, p)
    {
      assert Done(mk, D, u);
    }
    forall u, p | 0 <= u < g.vertices && D[u].Fin? && IsPath(g, p, s, u) && PathWeight(g, p) == D[u].n
      ensures Le(N[u], Fin(SecondaryCost(g, p)))
    {
      assert Done(mk, D, u);
    }
    forall u, p | 0 <= u < g.vertices && D[u].Inf?
      ensures !IsPath(g, p, s, u)
    {
      if IsPath(g, p, s, u) {
        var j := Frontier(g, s, mk, D, N, V, p, u);
        assert false;
      }
    }
  }

  /** When the run is over, every reached vertex has been marked visited. */
  lemma ClosedMarks(mk: seq<Mark>, D: seq<Ext>)
    requires Closed(mk, D)
    ensures forall u :: 0 <= u < |D| && D[u].Fin? ==> 0 <= u < |mk| && mk[u] == Visited
  {
  }

  /** The least entry of a heap ordered by `DDComp` has the least key. */
  lemma TopIsLeast(H: Heap.MyHeap<DijkElem>)
    requires Heap.Valid(H, DDPrior) && |H.data| > 0
    ensures forall f | f in multiset(H.data) :: Le(Heap.Top(H).weight, f.weight)
  {
    DDPriorIsStrictWeakOrder();
    Heap.TopIsFirst(H, DDPrior);
    forall f | f in multiset(H.data)
      ensures Le(Heap.Top(H).weight, f.weight)
    {
      var k :| 0 <= k < |H.data| && H.data[k] == f;
    }
  }

  // ---------------------------------------------------------------------------
  // The algorithm
  // ---------------------------------------------------------------------------

  /** Dropping one more entry for a visited vertex keeps every dropped entry stale. */
  lemma DropStale(G: Graph, A: multiset<DijkElem>, B: multiset<DijkElem>, e: DijkElem)
    requires WellFormed(G) && B <= A && e in B && GetMark(G, e.vertex) == Ok(Visited)
    requires forall f | f in A - B :: GetMark(G, f.vertex) == Ok(Visited)
    ensures B - multiset{e} <= A
    ensures forall f | f in A - (B - multiset{e}) :: GetMark(G, f.vertex) == Ok(Visited)
  {
    forall f | f in A - (B - multiset{e})
      ensures GetMark(G, f.vertex) == Ok(Visited)
    {
      if f != e {
        assert f in A - B;
      }
    }
  }

  /** The inner `do ... while` loop of `Dijkstra`: pop entries until one names an
      unvisited vertex. Without one (`H.size() == 0`) the run is over. */
  method PopUnvisited(ghost g: Graph, ghost s: int, G: Graph, H: Heap.MyHeap<DijkElem>,
                      D: seq<Ext>, N: seq<Ext>, V: seq<int>)
    returns (H': Heap.MyHeap<DijkElem>, found: bool, e: DijkElem, ghost Q: multiset<DijkElem>)
    requires G.(marks := g.marks) == g && |G.marks| == g.vertices
    requires Heap.Valid(H, DDPrior)
    requires Inv(g, s, G.marks, D, N, V, multiset(H.data), -1, 0) && MarkedAreDone(G.marks, D)
    ensures Heap.Valid(H', DDPrior)
    ensures !found ==> Closed(G.marks, D) && Inv(g, s, G.marks, D, N, V, multiset(H'.data), -1, 0)
    ensures found ==> Inv(g, s, G.marks, D, N, V, Q, -1, 0)
    ensures found ==> e in Q && (forall f | f in Q :: Le(e.weight, f.weight))
    ensures found ==> multiset(H'.data) == Q - multiset{e}
    ensures found ==> InRange(g, e.vertex) && G.marks[e.vertex] == Unvisited
    ensures multiset(H'.data) <= multiset(H.data)
    ensures !found ==> |H'.data| == 0
    ensures !found ==> forall f | f in multiset(H.data) :: GetMark(G, f.vertex) == Ok(Visited)
    ensures found ==> Q <= multiset(H.data)
    ensures found ==> forall f | f in multiset(H.data) - Q :: GetMark(G, f.vertex) == Ok(Visited)
  {
    DDPriorIsStrictWeakOrder();
    H' := H;
    while true
      invariant Heap.Valid(H', DDPrior)
      invariant Inv(g, s, G.marks, D, N, V, multiset(H'.data), -1, 0)
      invariant multiset(H'.data) <= multiset(H.data)
      invariant forall f | f in multiset(H.data) - multiset(H'.data) :: GetMark(G, f.vertex) == Ok(Visited)
      decreases |H'.data|
    {
      if |H'.data| == 0 {
        EmptyHeapCloses(g, s, G.marks, D, N, V);
        assert multiset(H'.data) == multiset{};
        found, e, Q := false, DijkElem(-1, Inf), multiset{};
        return;
      }
      e := Heap.Top(H');
      TopIsLeast(H');
      Q := multiset(H'.data);
      H' := Heap.Pop(H', DDPrior);
      if GetMark(G, e.vertex) != Ok(Visited) {
        found := true;
        return;
      }
      StalePop(g, s, G.marks, D, N, V, Q, e);
      DropStale(G, multiset(H.data), Q, e);
    }
  }

  /** The `for` loop over `G.firstNeighbor(v)`, `G.nextNeighbor(v, w)` of
      `Dijkstra`: relax every edge leaving `v`, in ascending order of the target. */
  method RelaxNeighbors(ghost g: Graph, ghost s: int, G: Graph, H: Heap.MyHeap<DijkElem>,
                        D: seq<Ext>, N: seq<Ext>, V: seq<int>, v: int)
    returns (H': Heap.MyHeap<DijkElem>, D': seq<Ext>, N': seq<Ext>, V': seq<int>)
    requires G.(marks := g.marks) == g && |G.marks| == g.vertices
    requires Heap.Valid(H, DDPrior)
    requires Inv(g, s, G.marks, D, N, V, multiset(H.data), v, 0)
    requires MarkedAreDone(G.marks, D) && Frozen(G.marks, D, v)
    ensures Heap.Valid(H', DDPrior)
    ensures Inv(g, s, G.marks, D', N', V', multiset(H'.data), -1, 0) && MarkedAreDone(G.marks, D')
  {
    DDPriorIsStrictWeakOrder();
    H', D', N', V' := H, D, N, V;
    var first := FirstNeighbor(G, v);
    var w := first.value;
    SkipNonEdges(g, s, G.marks, D', N', V', multiset(H'.data), v, 0, w);
    while w < NumVert(G)
      invariant 0 <= w <= g.vertices
      invariant w < g.vertices ==> Edge(g, v, w)
      invariant Heap.Valid(H', DDPrior)
      invariant Inv(g, s, G.marks, D', N', V', multiset(H'.data), v, w)
      invariant MarkedAreDone(G.marks, D') && Frozen(G.marks, D', v)
      decreases g.vertices - w
    {
      var wt := Weight(G, v, w).value;
      var cur := GetCurrencyVal(G, v).value;
      var r := Relax(D', N', V', v, w, wt, cur);
      ghost var Q := multiset(H'.data);
      if r.push {
        H' := Heap.Push(H', DijkElem(w, r.D[w]), DDPrior);
      }
      RelaxStep(g, s, G.marks, D', N', V', Q, v, w, r, multiset(H'.data));
      D', N', V' := r.D, r.N, r.V;
      var next := NextNeighbor(G, v, w);
      SkipNonEdges(g, s, G.marks, D', N', V', multiset(H'.data), v, w + 1, next.value);
      w := next.value;
    }
  }

  /** `Dijkstra(G, D, V, N, s)`. Only the marks of the graph change. On return every
      reached vertex has its shortest distance from `s` in D, the least bribe total
      among the shortest paths in N, and a predecessor in V that continues such a
      path; an unreached vertex keeps D = N = infinity and V = -1, and has no path
      from `s`. */
  method Dijkstra(g: Graph, s: int) returns (G: Graph, D: seq<Ext>, V: seq<int>, N: seq<Ext>)
    requires Valid(g) && InRange(g, s)
    ensures G.(marks := g.marks) == g
    ensures |D| == g.vertices && |N| == g.vertices && |V| == g.vertices
    ensures D[s] == Fin(0) && N[s] == Fin(0) && V[s] == -1
    ensures PredecessorTree(g, s, D, N, V)
    ensures forall u, p :: 0 <= u < g.vertices && D[u].Fin? && IsPath(g, p, s, u) ==> D[u].n <= PathWeight(g, p)
    ensures forall u, p :: 0 <= u < g.vertices && D[u].Fin? && IsPath(g, p, s, u) && PathWeight(g, p) == D[u].n ==>
      Le(N[u], Fin(SecondaryCost(g, p)))
    ensures forall u :: 0 <= u < g.vertices && D[u].Inf? ==> V[u] == -1 && N[u].Inf?
    ensures forall u, p :: 0 <= u < g.vertices && D[u].Inf? ==> !IsPath(g, p, s, u)
    ensures |G.marks| == g.vertices && forall u :: 0 <= u < g.vertices && D[u].Fin? ==> G.marks[u] == Visited
  {
    G := ClearMarks(g);
    DDPriorIsStrictWeakOrder();
    var E := [DijkElem(s, Fin(0))];
    var H := Heap.Build(E, 1, DDPrior);
    assert E[..1] == E;
    D, N, V := Initial(g.vertices, s).0, Initial(g.vertices, s).1, Initial(g.vertices, s).2;
    InitEstablishes(g, s, G.marks, D, N, V);
    CountNone(G.marks);

    var i := 0;
    while i < NumVert(G)
      invariant 0 <= i <= g.vertices
      invariant G.(marks := g.marks) == g && |G.marks| == g.vertices
      invariant Heap.Valid(H, DDPrior)
      invariant Inv(g, s, G.marks, D, N, V, multiset(H.data), -1, 0) && MarkedAreDone(G.marks, D)
      invariant CountVisited(G.marks) == i
      decreases g.vertices - i
    {
      var found, temp;
      ghost var Q;
      H, found, temp, Q := PopUnvisited(g, s, G, H, D, N, V);
      if !found {
        ClosedIsCorrect(g, s, G.marks, D, N, V, multiset(H.data));
        ClosedMarks(G.marks, D);
        return;
      }
      var v := temp.vertex;
      ghost var mk := G.marks;
      CountMark(mk, v);
      G := SetMark(G, v, Visited);
      assert G.marks == mk[v := Visited];
      VisitStep(g, s, mk, D, N, V, Q, temp);
      if D[v] == Inf {
        ClosedIsCorrect(g, s, G.marks, D, N, V, multiset(H.data));
        ClosedMarks(G.marks, D);
        return;
      }
      H, D, N, V := RelaxNeighbors(g, s, G, H, D, N, V, v);
      i := i + 1;
    }
    AllVisitedCloses(g, s, G.marks, D);
    ClosedIsCorrect(g, s, G.marks, D, N, V, multiset(H.data));
    ClosedMarks(G.marks, D);
  }

  /** The route `pathTrace` prints is a shortest path from `s` whose bribe total is
      the least among shortest paths. */
  lemma RouteIsShortest(g: Graph, s: int, D: seq<Ext>, N: seq<Ext>, V: seq<int>, t: int)
    requires ShortestPaths(g, s, D, N, V)
    requires InRange(g, t) && t != s && D[t].Fin?
    ensures var p := PathTrace(g, D, N, V, s, t);
      && IsPath(g, p, s, t)
      && (forall q :: IsPath(g, q, s, t) ==> PathWeight(g, p) <= PathWeight(g, q))
      && (forall q :: IsPath(g, q, s, t) && PathWeight(g, q) == PathWeight(g, p) ==>
            SecondaryCost(g, p) <= SecondaryCost(g, q))
  {
  }
}

=== FILE: graph.dfy ===
/**
  The graph ADT of graph.h: an n-by-n weight matrix in which weight 0 means
  "no edge", an edge counter, one visitation mark and one currency (name and
  bribe value) per vertex. Every accessor except `setMark` checks its indices and throws
  `std::out_of_range` otherwise; that exception is the `OutOfRange` result here.
  Float weights and currency values are modelled as integers.
 */
module Graphs {

  /** A value, or the `out_of_range` exception with the operation's name. */
  datatype Result<T> = Ok(value: T) | OutOfRange(op: string)

  /** The per-vertex mark (`UNVISITED` = 0, `VISITED` = 1 in the source). */
  datatype Mark = Unvisited | Visited

  /** A vertex's currency: its name and bribe value. */
  datatype Currency = Currency(name: string, value: int)

  /** Name and value of a vertex whose currency has not been set. */
  const EMPTY: string := "EMPTY"
  const NO_VAL: int := -1

  datatype Graph = Graph(
    vertices: int,
    edges: int,
    adj: seq<seq<int>>,
    marks: seq<Mark>,
    currencies: seq<Currency>)

  /** Every per-vertex list has one entry per vertex. */
  ghost predicate WellFormed(g: Graph)
  {
    && g.vertices >= 0
    && |g.adj| == g.vertices
    && (forall i :: 0 <= i < |g.adj| ==> |g.adj[i]| == g.vertices)
    && |g.marks| == g.vertices
    && |g.currencies| == g.vertices
  }

  /** The graph invariant: no negative weight, and the counter is the number of edges. */
  ghost predicate Valid(g: Graph)
  {
    && WellFormed(g)
    && (forall i, j :: 0 <= i < g.vertices && 0 <= j < g.vertices ==> g.adj[i][j] >= 0)
    && g.edges == EdgeCount(g.adj)
  }

  predicate InRange(g: Graph, v: int)
  {
    0 <= v < g.vertices
  }

  // ---------------------------------------------------------------------------
  // Counting the nonzero entries of the matrix
  // ---------------------------------------------------------------------------

  function NonZero(x: int): nat
  {
    if x != 0 then 1 else 0
  }

  /** Number of nonzero entries of one row. */
  function RowCount(row: seq<int>): nat
  {
    if |row| == 0 then 0 else RowCount(row[..|row| - 1]) + NonZero(row[|row| - 1])
  }

  /** Number of nonzero entries of the matrix. */
  function EdgeCount(m: seq<seq<int>>): nat
  {
    if |m| == 0 then 0 else EdgeCount(m[..|m| - 1]) + RowCount(m[|m| - 1])
  }

  lemma {:induction false} RowCountUpdate(row: seq<int>, j: nat, x: int)
    requires j < |row|
    ensures RowCount(row[j := x]) == RowCount(row) - NonZero(row[j]) + NonZero(x)
    decreases |row|
  {
    var r' := row[j := x];
    var last := |row| - 1;
    if j < last {
      assert r'[..last] == row[..last][j := x];
      RowCountUpdate(row[..last], j, x);
    } else {
      assert r'[..last] == row[..last];
    }
  }

  lemma {:induction false} EdgeCountUpdate(m: seq<seq<int>>, i: nat, r: seq<int>)
    requires i < |m|
    ensures EdgeCount(m[i := r]) == EdgeCount(m) - RowCount(m[i]) + RowCount(r)
    decreases |m|
  {
    var m' := m[i := r];
    var last := |m| - 1;
    if i < last {
      assert m'[..last] == m[..last][i := r];
      EdgeCountUpdate(m[..last], i, r);
    } else {
      assert m'[..last] == m[..last];
    }
  }

  lemma {:induction false} RowCountZero(row: seq<int>)
    requires forall k :: 0 <= k < |row| ==> row[k] == 0
    ensures RowCount(row) == 0
    decreases |row|
  {
    if |row| > 0 {
      RowCountZero(row[..|row| - 1]);
    }
  }

  lemma {:induction false} EdgeCountZero(m: seq<seq<int>>)
    requires forall i, k :: 0 <= i < |m| && 0 <= k < |m[i]| ==> m[i][k] == 0
    ensures EdgeCount(m) == 0
    decreases |m|
  {
    if |m| > 0 {
      RowCountZero(m[|m| - 1]);
      EdgeCountZero(m[..|m| - 1]);
    }
  }

  // ---------------------------------------------------------------------------
  // Construction and queries
  // ---------------------------------------------------------------------------

  /** `Graph(numVert)`: no edges, every mark cleared, every currency unset. */
  function NewGraph(n: nat): (g: Graph)
    ensures Valid(g) && g.vertices == n && g.edges == 0
    ensures forall i, j :: 0 <= i < n && 0 <= j < n ==> g.adj[i][j] == 0
    ensures forall i :: 0 <= i < n ==> g.marks[i] == Unvisited && g.currencies[i] == Currency(EMPTY, NO_VAL)
  {
    var adj := seq(n, _ => seq(n, _ => 0));
    EdgeCountZero(adj);
    Graph(n, 0, adj, seq(n, _ => Unvisited), seq(n, _ => Currency(EMPTY, NO_VAL)))
  }

  /** `numVert`: the vertex count, which sizes the matrix. */
  function NumVert(g: Graph): (n: int)
    ensures WellFormed(g) ==> n >= 0 && n == |g.adj| && n == |g.marks|
  {
    g.vertices
  }

  /** `numEdges`: the edge counter, which in a valid graph is the number of edges. */
  function NumEdges(g: Graph): (m: int)
    ensures Valid(g) ==> m == EdgeCount(g.adj) && m >= 0
  {
    g.edges
  }

  /** `isEdge`: a nonzero weight is an edge; bad indices throw. */
  function IsEdge(g: Graph, v1: int, v2: int): (r: Result<bool>)
    requires WellFormed(g)
    ensures r.Ok? <==> InRange(g, v1) && InRange(g, v2)
    ensures r.Ok? ==> (r.value <==> g.adj[v1][v2] != 0)
  {
    if InRange(g, v1) && InRange(g, v2) then Ok(g.adj[v1][v2] != 0)
    else OutOfRange("Graph::isEdge")
  }

  /** `weight`: the stored weight (0 when there is no edge); bad indices throw. */
  function Weight(g: Graph, v1: int, v2: int): (r: Result<int>)
    requires WellFormed(g)
    ensures r.Ok? <==> InRange(g, v1) && InRange(g, v2)
    ensures r.Ok? ==> r.value == g.adj[v1][v2]
    ensures r.Ok? && Valid(g) ==> r.value >= 0 && (r.value > 0 <==> IsEdge(g, v1, v2) == Ok(true))
  {
    if InRange(g, v1) && InRange(g, v2) then Ok(g.adj[v1][v2])
    else OutOfRange("Graph::weight")
  }

  /** `setEdge`: stores a non-negative weight and keeps the edge counter exact;
      a bad index or a negative weight throws and changes nothing. */
  function SetEdge(g: Graph, v1: int, v2: int, wt: int): (r: Result<Graph>)
    requires WellFormed(g)
    ensures r.Ok? <==> InRange(g, v1) && InRange(g, v2) && wt >= 0
    ensures r.Ok? ==> r.value.vertices == g.vertices && WellFormed(r.value)
    ensures r.Ok? ==> r.value.adj[v1][v2] == wt
    ensures r.Ok? ==> forall i, j :: 0 <= i < g.vertices && 0 <= j < g.vertices && (i != v1 || j != v2) ==>
      r.value.adj[i][j] == g.adj[i][j]
    ensures r.Ok? ==> r.value.(edges := g.edges, adj := g.adj) == g
    ensures r.Ok? && Valid(g) ==> Valid(r.value)
    ensures r.Ok? && Valid(g) ==> IsEdge(r.value, v1, v2) == Ok(wt != 0)
    ensures r.Ok? ==> Weight(r.value, v1, v2) == Ok(wt)
  {
    if InRange(g, v1) && InRange(g, v2) && wt >= 0 then
      var old_wt := g.adj[v1][v2];
      var edges :=
        if old_wt == 0 && wt != 0 then g.edges + 1
        else if old_wt != 0 && wt == 0 then g.edges - 1
        else g.edges;
      var row := g.adj[v1][v2 := wt];
      RowCountUpdate(g.adj[v1], v2, wt);
      EdgeCountUpdate(g.adj, v1, row);
      Ok(g.(edges := edges, adj := g.adj[v1 := row]))
    else
      OutOfRange("Graph::setEdge")
  }

  /** `delEdge`: removes an edge (weight 0) and keeps the counter exact; bad indices throw. */
  function DelEdge(g: Graph, v1: int, v2: int): (r: Result<Graph>)
    requires WellFormed(g)
    ensures r.Ok? <==> InRange(g, v1) && InRange(g, v2)
    ensures r.Ok? ==> r.value.vertices == g.vertices && WellFormed(r.value)
    ensures r.Ok? ==> r.value.adj[v1][v2] == 0
    ensures r.Ok? ==> forall i, j :: 0 <= i < g.vertices && 0 <= j < g.vertices && (i != v1 || j != v2) ==>
      r.value.adj[i][j] == g.adj[i][j]
    ensures r.Ok? ==> r.value.(edges := g.edges, adj := g.adj) == g
    ensures r.Ok? && Valid(g) ==> Valid(r.value)
    ensures r.Ok? && Valid(g) ==> r.value == SetEdge(g, v1, v2, 0).value
  {
    if InRange(g, v1) && InRange(g, v2) then
      var edges := if IsEdge(g, v1, v2).value then g.edges - 1 else g.edges;
      var row := g.adj[v1][v2 := 0];
      RowCountUpdate(g.adj[v1], v2, 0);
      EdgeCountUpdate(g.adj, v1, row);
      Ok(g.(edges := edges, adj := g.adj[v1 := row]))
    else
      OutOfRange("Graph::delEdge")
  }

  /** Adding an edge where there was none and deleting it again gives back the
      original graph, edge counter included. */
  lemma DelUndoesSet(g: Graph, v1: int, v2: int, wt: int)
    requires WellFormed(g) && InRange(g, v1) && InRange(g, v2) && wt >= 0
    requires g.adj[v1][v2] == 0
    ensures SetEdge(g, v1, v2, wt).Ok?
    ensures DelEdge(SetEdge(g, v1, v2, wt).value, v1, v2) == Ok(g)
  {
    var h := SetEdge(g, v1, v2, wt).value;
    assert h.adj[v1][v2 := 0] == g.adj[v1];
    assert h.adj[v1 := g.adj[v1]] == g.adj;
  }

  /** `getMark`; bad index throws. */
  function GetMark(g: Graph, v: int): (r: Result<Mark>)
    requires WellFormed(g)
    ensures r.Ok? <==> InRange(g, v)
    ensures r.Ok? ==> r.value == g.marks[v]
  {
    if InRange(g, v) then Ok(g.marks[v]) else OutOfRange("Graph::getMark")
  }

  /** `setMark` does no index check, so the caller must pass a vertex. */
  function SetMark(g: Graph, v: int, m: Mark): (r: Graph)
    requires WellFormed(g) && InRange(g, v)
    ensures WellFormed(r) && GetMark(r, v) == Ok(m)
    ensures forall u :: InRange(g, u) && u != v ==> GetMark(r, u) == GetMark(g, u)
    ensures r.(marks := g.marks) == g
  {
    g.(marks := g.marks[v := m])
  }

  /** `clearMarks`: every vertex unvisited, nothing else changes. */
  function ClearMarks(g: Graph): (r: Graph)
    requires WellFormed(g)
    ensures WellFormed(r)
    ensures forall u :: InRange(g, u) ==> GetMark(r, u) == Ok(Unvisited)
    ensures r.(marks := g.marks) == g
  {
    g.(marks := seq(|g.marks|, _ => Unvisited))
  }

  /** `getCurrency`: the vertex's currency name; bad index throws. */
  function GetCurrency(g: Graph, v: int): (r: Result<string>)
    requires WellFormed(g)
    ensures r.Ok? <==> InRange(g, v)
    ensures r.Ok? ==> r.value == g.currencies[v].name
  {
    if InRange(g, v) then Ok(g.currencies[v].name) else OutOfRange("Graph::getCurrency")
  }

  /** `getCurrencyVal`: the vertex's bribe value; bad index throws. */
  function GetCurrencyVal(g: Graph, v: int): (r: Result<int>)
    requires WellFormed(g)
    ensures r.Ok? <==> InRange(g, v)
    ensures r.Ok? ==> r.value == g.currencies[v].value
  {
    if InRange(g, v) then Ok(g.currencies[v].value) else OutOfRange("Graph::getCurrencyVal")
  }

  /** `setCurrency`: sets one vertex's name and value; bad index throws. */
  function SetCurrency(g: Graph, v: int, bribe: int, currency: string): (r: Result<Graph>)
    requires WellFormed(g)
    ensures r.Ok? <==> InRange(g, v)
    ensures r.Ok? ==> WellFormed(r.value)
    ensures r.Ok? ==> GetCurrency(r.value, v) == Ok(currency) && GetCurrencyVal(r.value, v) == Ok(bribe)
    ensures r.Ok? ==> forall u :: InRange(g, u) && u != v ==> GetCurrency(r.value, u) == GetCurrency(g, u)
    ensures r.Ok? ==> forall u :: InRange(g, u) && u != v ==> GetCurrencyVal(r.value, u) == GetCurrencyVal(g, u)
    ensures r.Ok? ==> r.value.(currencies := g.currencies) == g
  {
    if InRange(g, v) then Ok(g.(currencies := g.currencies[v := Currency(currency, bribe)]))
    else OutOfRange("Graph::setCurrency")
  }

  // ---------------------------------------------------------------------------
  // Neighbour enumeration in ascending order
  // ---------------------------------------------------------------------------

  /** The least `j >= lo` with an edge `v -> j`, or `vertices` when there is none. */
  ghost predicate IsNextEdge(g: Graph, v: int, lo: int, r: int)
    requires WellFormed(g) && InRange(g, v)
  {
    && 0 <= r <= g.vertices
    && (r < g.vertices ==> lo <= r && g.adj[v][r] != 0)
    && (forall j :: lo <= j < r && 0 <= j ==> g.adj[v][j] == 0)
  }

  /** `nextNeighbor(v, w)`: scans `w+1, w+2, ...` through `isEdge`, so it throws
      exactly when the scan starts inside the matrix bounds from a bad index. */
  method NextNeighbor(g: Graph, v: int, w: int) returns (r: Result<int>)
    requires WellFormed(g)
    ensures r.OutOfRange? <==> w + 1 < g.vertices && (!InRange(g, v) || w + 1 < 0)
    ensures r.Ok? && InRange(g, v) ==> IsNextEdge(g, v, w + 1, r.value)
    ensures r.Ok? && !InRange(g, v) ==> r.value == g.vertices
  {
    var i := w + 1;
    while i < g.vertices
      invariant w + 1 <= i
      invariant i > w + 1 ==> InRange(g, v) && 0 <= w + 1 && i <= g.vertices
      invariant i > w + 1 ==> forall j :: w + 1 <= j < i ==> g.adj[v][j] == 0
      decreases g.vertices - i
    {
      var e := IsEdge(g, v, i);
      if e.OutOfRange? {
        return OutOfRange(e.op);
      }
      if e.value {
        return Ok(i);
      }
      i := i + 1;
    }
    return Ok(g.vertices);
  }

  /** `firstNeighbor(v)`: the same scan from 0. */
  method FirstNeighbor(g: Graph, v: int) returns (r: Result<int>)
    requires WellFormed(g)
    ensures r.OutOfRange? <==> 0 < g.vertices && !InRange(g, v)
    ensures r.Ok? && InRange(g, v) ==> IsNextEdge(g, v, 0, r.value)
    ensures r.Ok? && !InRange(g, v) ==> r.value == g.vertices
  {
    var i := 0;
    while i < g.vertices
      invariant 0 <= i
      invariant i > 0 ==> InRange(g, v) && i <= g.vertices
      invariant i > 0 ==> forall j :: 0 <= j < i ==> g.adj[v][j] == 0
      decreases g.vertices - i
    {
      var e := IsEdge(g, v, i);
      if e.OutOfRange? {
        return OutOfRange(e.op);
      }
      if e.value {
        return Ok(i);
      }
      i := i + 1;
    }
    return Ok(g.vertices);
  }
}

=== FILE: heap.dfy ===
/**
  An array-backed binary heap (MyHeap.hpp). The ordering is a pluggable strict
  relation `prior(x, y)`: "x has priority over y". The backing buffer is modelled
  by its logical contents `data` (the first `size` slots) and an integer
  `capacity`; the slots past `size` hold nothing the heap ever reads.
 */
module Heap {

  // ---------------------------------------------------------------------------
  // Index arithmetic of the implicit tree
  // ---------------------------------------------------------------------------

  /** Parent slot. C++ `(n - 1) / 2` truncates toward zero, so the root is its own parent. */
  function Parent(n: nat): (p: nat)
    ensures n == 0 ==> p == 0
    ensures n > 0 ==> p < n && (2 * p + 1 == n || 2 * p + 2 == n)
  {
    if n == 0 then 0 else (n - 1) / 2
  }

  /** Left child slot. */
  function Lc(n: nat): (c: nat)
    ensures c > n && Parent(c) == n
  {
    2 * n + 1
  }

  /** Right child slot: the left child's neighbour, with the same parent. */
  function Rc(n: nat): (c: nat)
    ensures c == Lc(n) + 1 && Parent(c) == n
  {
    2 * n + 2
  }

  /** A slot is a leaf of a heap of `size` elements when it lies in the second half. */
  predicate IsLeaf(n: int, size: int)
  {
    n >= size / 2 && n < size
  }

  /** Inside a heap a slot is a leaf exactly when it has no left child, so
      `sift_down` only reads `lc(n)` when that slot is occupied. */
  lemma LeafIffNoLeftChild(n: nat, size: nat)
    requires n < size
    ensures IsLeaf(n, size) <==> Lc(n) >= size
  {
    assert size / 2 * 2 <= size < size / 2 * 2 + 2;
  }

  /** The parent map is monotone, so every slot past `Parent(size - 1)` is a leaf. */
  lemma ParentMonotone(i: nat, j: nat)
    requires i <= j
    ensures Parent(i) <= Parent(j)
  {
  }

  // ---------------------------------------------------------------------------
  // Orderings and the heap property
  // ---------------------------------------------------------------------------

  /** What the heap needs of `prior`: a strict weak order. */
  ghost predicate StrictWeakOrder<T(!new)>(prior: (T, T) -> bool)
  {
    && (forall x, y :: prior(x, y) ==> !prior(y, x))
    && (forall x, y, z :: prior(x, y) && prior(y, z) ==> prior(x, z))
    && (forall x, y, z :: !prior(x, y) && !prior(y, z) ==> !prior(x, z))
  }

  /** No element whose parent sits at slot `k` or later has priority over that parent. */
  ghost predicate HeapFrom<T>(a: seq<T>, k: nat, prior: (T, T) -> bool)
  {
    forall j :: 0 < j < |a| && k <= Parent(j) ==> !prior(a[j], a[Parent(j)])
  }

  /** The heap property: no element has priority over its parent (ties allowed). */
  ghost predicate IsHeap<T>(a: seq<T>, prior: (T, T) -> bool)
  {
    HeapFrom(a, 0, prior)
  }

  /** The heap object: logical contents and allocated capacity. */
  datatype MyHeap<T> = MyHeap(data: seq<T>, capacity: nat)

  /** The class invariant kept by every public operation. */
  ghost predicate Valid<T>(h: MyHeap<T>, prior: (T, T) -> bool)
  {
    |h.data| <= h.capacity && IsHeap(h.data, prior)
  }

  /** The capacity bound that holds after every `pop`. */
  predicate CapacityAfterPop<T>(h: MyHeap<T>)
  {
    || 4 * |h.data| > h.capacity
    || (|h.data| > 0 && h.capacity == 2 * |h.data|)
    || (|h.data| == 0 && h.capacity == 0)
  }

  function Swap<T>(a: seq<T>, i: nat, j: nat): (b: seq<T>)
    requires i < |a| && j < |a|
    ensures |b| == |a| && b[i] == a[j] && b[j] == a[i]
    ensures forall k :: 0 <= k < |a| && k != i && k != j ==> b[k] == a[k]
    ensures multiset(b) == multiset(a)
  {
    a[i := a[j]][j := a[i]]
  }

  // ---------------------------------------------------------------------------
  // The root has the highest priority
  // ---------------------------------------------------------------------------

  lemma {:induction false} RootFirstAt<T(!new)>(a: seq<T>, prior: (T, T) -> bool, i: nat)
    requires StrictWeakOrder(prior) && IsHeap(a, prior)
    requires i < |a|
    ensures !prior(a[i], a[0])
    decreases i
  {
    if i > 0 {
      RootFirstAt(a, prior, Parent(i));
    }
  }

  /** In a heap no element has priority over the one in slot 0. */
  lemma RootFirst<T(!new)>(a: seq<T>, prior: (T, T) -> bool)
    requires StrictWeakOrder(prior) && IsHeap(a, prior)
    ensures forall i :: 0 <= i < |a| ==> !prior(a[i], a[0])
  {
    forall i | 0 <= i < |a|
      ensures !prior(a[i], a[0])
    {
      RootFirstAt(a, prior, i);
    }
  }

  // ---------------------------------------------------------------------------
  // sift_down, heapify and the constructor
  // ---------------------------------------------------------------------------

  /** The loop invariant of `sift_down` started at `n`, currently at `k`: every
      parent/child pair below `n` is ordered except those whose parent is `k`,
      and `k`'s children do not outrank `k`'s parent. */
  ghost predicate SiftingDown<T>(b: seq<T>, n: nat, k: nat, prior: (T, T) -> bool)
  {
    && n <= k < |b|
    && (forall j :: 0 < j < |b| && n <= Parent(j) && Parent(j) != k ==> !prior(b[j], b[Parent(j)]))
    && (k > n ==> n <= Parent(k))
    && (k > n && Lc(k) < |b| ==> !prior(b[Lc(k)], b[Parent(k)]))
    && (k > n && Rc(k) < |b| ==> !prior(b[Rc(k)], b[Parent(k)]))
  }

  /** The child `sift_down` compares against: the right one only when it outranks the left. */
  function LargerChild<T>(b: seq<T>, k: nat, prior: (T, T) -> bool): (c: nat)
    requires Lc(k) < |b|
    ensures c == Lc(k) || (c == Rc(k) && c < |b|)
    ensures c == Rc(k) ==> prior(b[Rc(k)], b[Lc(k)])
    ensures Rc(k) < |b| && c == Lc(k) ==> !prior(b[Rc(k)], b[Lc(k)])
  {
    if Rc(k) < |b| && prior(b[Rc(k)], b[Lc(k)]) then Rc(k) else Lc(k)
  }

  /** Stopping because `k` outranks its larger child leaves a heap from `n` on. */
  lemma SiftDownStops<T(!new)>(b: seq<T>, n: nat, k: nat, prior: (T, T) -> bool)
    requires StrictWeakOrder(prior) && SiftingDown(b, n, k, prior)
    requires Lc(k) < |b| && prior(b[k], b[LargerChild(b, k, prior)])
    ensures HeapFrom(b, n, prior)
  {
    var c := LargerChild(b, k, prior);
    forall j | 0 < j < |b| && n <= Parent(j)
      ensures !prior(b[j], b[Parent(j)])
    {
      if Parent(j) == k {
        assert j == Lc(k) || j == Rc(k);
      }
    }
  }

  /** Swapping `k` with its larger child moves the single gap one level down. */
  lemma SiftDownSwaps<T(!new)>(b: seq<T>, n: nat, k: nat, prior: (T, T) -> bool)
    requires StrictWeakOrder(prior) && SiftingDown(b, n, k, prior)
    requires Lc(k) < |b| && !prior(b[k], b[LargerChild(b, k, prior)])
    ensures SiftingDown(Swap(b, k, LargerChild(b, k, prior)), n, LargerChild(b, k, prior), prior)
  {
    var c := LargerChild(b, k, prior);
    var b' := Swap(b, k, c);
    forall j | 0 < j < |b'| && n <= Parent(j) && Parent(j) != c
      ensures !prior(b'[j], b'[Parent(j)])
    {
      if Parent(j) == k {
        assert j == Lc(k) || j == Rc(k);
      } else if j == k {
        assert b'[j] == b[c] && b'[Parent(j)] == b[Parent(k)];
      } else {
        assert j != c;
        assert b'[j] == b[j];
      }
    }
  }

  /** `sift_down(n)`: the subtrees below `n` are heaps; afterwards the subtree at `n`
      is one too, only the slots from `n` on have moved, and the contents are a
      permutation of the input. */
  method SiftDown<T(!new)>(a: seq<T>, n: nat, prior: (T, T) -> bool) returns (b: seq<T>)
    requires StrictWeakOrder(prior)
    requires n < |a|
    requires HeapFrom(a, n + 1, prior)
    ensures |b| == |a| && multiset(b) == multiset(a)
    ensures b[..n] == a[..n]
    ensures HeapFrom(b, n, prior)
  {
    b := a;
    var k: nat := n;
    while !IsLeaf(k, |b|)
      invariant SiftingDown(b, n, k, prior)
      invariant |b| == |a| && multiset(b) == multiset(a)
      invariant b[..n] == a[..n]
      decreases |b| - k
    {
      LeafIffNoLeftChild(k, |b|);
      var largerChild := Lc(k);
      var rChild := Rc(k);
      if rChild < |b| && prior(b[rChild], b[largerChild]) {
        largerChild := rChild;
      }
      assert largerChild == LargerChild(b, k, prior);
      if prior(b[k], b[largerChild]) {
        SiftDownStops(b, n, k, prior);
        return;
      }
      SiftDownSwaps(b, n, k, prior);
      b := Swap(b, k, largerChild);
      k := largerChild;
    }
    LeafIffNoLeftChild(k, |b|);
  }

  /** `heapify`: bottom-up sifting from the last internal slot to the root. */
  method Heapify<T(!new)>(a: seq<T>, prior: (T, T) -> bool) returns (b: seq<T>)
    requires StrictWeakOrder(prior)
    ensures |b| == |a| && multiset(b) == multiset(a)
    ensures IsHeap(b, prior)
  {
    b := a;
    if |b| == 0 {
      return;
    }
    var i: int := Parent(|b| - 1);
    forall j | 0 < j < |b|
      ensures Parent(j) <= i
    {
      ParentMonotone(j, |b| - 1);
    }
    while i >= 0
      invariant -1 <= i < |b|
      invariant |b| == |a| && multiset(b) == multiset(a)
      invariant HeapFrom(b, i + 1, prior)
      decreases i
    {
      b := SiftDown(b, i, prior);
      i := i - 1;
    }
  }

  /** The constructor `MyHeap(arr, size)`: a positive size copies `arr[0..size)` into
      a buffer of twice that capacity and heapifies it; otherwise the heap is empty. */
  method Build<T(!new)>(arr: seq<T>, size: int, prior: (T, T) -> bool) returns (h: MyHeap<T>)
    requires StrictWeakOrder(prior)
    requires size <= |arr|
    ensures Valid(h, prior)
    ensures size > 0 ==> |h.data| == size && h.capacity == 2 * size
    ensures size > 0 ==> multiset(h.data) == multiset(arr[..size])
    ensures size <= 0 ==> h.data == [] && h.capacity == 0
  {
    if size > 0 {
      var b := Heapify(arr[..size], prior);
      h := MyHeap(b, 2 * size);
    } else {
      h := MyHeap([], 0);
    }
  }

  // ---------------------------------------------------------------------------
  // top, pop, push and the capacity policy
  // ---------------------------------------------------------------------------

  /** `top`: the element in slot 0 (unchecked read, so the heap must be non-empty). */
  function Top<T>(h: MyHeap<T>): (t: T)
    requires |h.data| > 0
    ensures t in multiset(h.data)
  {
    h.data[0]
  }

  /** No stored element has priority over `top`. */
  lemma TopIsFirst<T(!new)>(h: MyHeap<T>, prior: (T, T) -> bool)
    requires StrictWeakOrder(prior) && Valid(h, prior)
    requires |h.data| > 0
    ensures forall i :: 0 <= i < |h.data| ==> !prior(h.data[i], Top(h))
  {
    RootFirst(h.data, prior);
  }

  /** `reserve(size)`: reallocates to the given capacity, keeping the contents in order. */
  function Reserve<T>(h: MyHeap<T>, size: nat): (r: MyHeap<T>)
    requires |h.data| <= size
    ensures r.data == h.data && r.capacity == size
  {
    MyHeap(h.data, size)
  }

  /** `shrink_to_fit`: when at most a quarter of the capacity is used, reallocate to
      twice the size, or release the buffer when empty. */
  function ShrinkToFit<T>(h: MyHeap<T>): (r: MyHeap<T>)
    requires |h.data| <= h.capacity
    ensures r.data == h.data && |r.data| <= r.capacity <= h.capacity
    ensures 4 * |h.data| > h.capacity ==> r == h
    ensures 4 * |h.data| <= h.capacity ==> CapacityAfterPop(r)
    ensures 4 * |h.data| <= h.capacity ==> r.capacity == (if |h.data| == 0 then 0 else 2 * |h.data|)
  {
    if |h.data| != 0 && 4 * |h.data| <= h.capacity then
      MyHeap(h.data, 2 * |h.data|)
    else if |h.data| == 0 && 4 * |h.data| <= h.capacity then
      MyHeap(h.data, 0)
    else
      h
  }

  /** `pop`: a no-op on an empty heap; otherwise removes one occurrence of the top
      element, keeps the heap property and shrinks the buffer when it is sparse. */
  /** The array work of `pop`: move the last element to the root, drop the old
      root and sift the new root down. */
  method RemoveTop<T(!new)>(b: seq<T>, prior: (T, T) -> bool) returns (a: seq<T>)
    requires StrictWeakOrder(prior) && IsHeap(b, prior) && |b| > 0
    ensures IsHeap(a, prior) && |a| == |b| - 1
    ensures multiset(a) == multiset(b) - multiset{b[0]}
  {
    var last := |b| - 1;
    var s := Swap(b, 0, last);
    a := s[..last];
    assert s == a + [b[0]];
    assert multiset(a) == multiset(b) - multiset{b[0]};
    if |a| != 0 {
      assert HeapFrom(a, 1, prior) by {
        forall j | 0 < j < |a| && 1 <= Parent(j)
          ensures !prior(a[j], a[Parent(j)])
        {
          assert a[j] == b[j] && a[Parent(j)] == b[Parent(j)];
        }
      }
      a := SiftDown(a, 0, prior);
    }
  }

  method Pop<T(!new)>(h: MyHeap<T>, prior: (T, T) -> bool) returns (r: MyHeap<T>)
    requires StrictWeakOrder(prior) && Valid(h, prior)
    ensures Valid(r, prior)
    ensures |h.data| == 0 ==> r == h
    ensures |h.data| > 0 ==> |r.data| == |h.data| - 1
    ensures |h.data| > 0 ==> multiset(r.data) == multiset(h.data) - multiset{h.data[0]}
    ensures |h.data| > 0 ==> CapacityAfterPop(r)
    ensures |h.data| > 0 && 4 * |r.data| > h.capacity ==> r.capacity == h.capacity
    ensures |h.data| > 0 && 4 * |r.data| <= h.capacity ==> r.capacity == (if |r.data| == 0 then 0 else 2 * |r.data|)
  {
    if |h.data| == 0 {
      return h;
    }
    var a := RemoveTop(h.data, prior);
    var shrunk := MyHeap(a, h.capacity);
    if 4 * |a| <= h.capacity {
      shrunk := ShrinkToFit(shrunk);
    }
    r := shrunk;
  }

  /** The loop invariant of the sift-up in `push`, currently at `pos`: every pair is
      ordered except `pos` with its parent, and `pos`'s children do not outrank
      `pos`'s parent. */
  ghost predicate SiftingUp<T>(b: seq<T>, pos: nat, prior: (T, T) -> bool)
  {
    && pos < |b|
    && (forall j :: 0 < j < |b| && j != pos ==> !prior(b[j], b[Parent(j)]))
    && (pos > 0 && Lc(pos) < |b| ==> !prior(b[Lc(pos)], b[Parent(pos)]))
    && (pos > 0 && Rc(pos) < |b| ==> !prior(b[Rc(pos)], b[Parent(pos)]))
  }

  /** Swapping `pos` with a parent it outranks moves the gap one level up. */
  lemma SiftUpSwaps<T(!new)>(b: seq<T>, pos: nat, prior: (T, T) -> bool)
    requires StrictWeakOrder(prior) && SiftingUp(b, pos, prior)
    requires pos > 0 && prior(b[pos], b[Parent(pos)])
    ensures SiftingUp(Swap(b, pos, Parent(pos)), Parent(pos), prior)
  {
    var p := Parent(pos);
    var b' := Swap(b, pos, p);
    forall j | 0 < j < |b'| && j != p
      ensures !prior(b'[j], b'[Parent(j)])
    {
      if j == pos {
      } else if Parent(j) == pos {
        assert b'[j] == b[j] && b'[Parent(j)] == b[p];
        assert j == Lc(pos) || j == Rc(pos);
      } else if Parent(j) == p {
        assert b'[j] == b[j] && b'[p] == b[pos];
      } else {
        assert b'[j] == b[j] && b'[Parent(j)] == b[Parent(j)];
      }
    }
    if p > 0 {
      var pp := Parent(p);
      assert b'[pp] == b[pp] && b'[p] == b[pos] && b'[pos] == b[p];
      assert !prior(b[p], b[pp]);
      if Rc(p) < |b'| {
        var sib := if pos == Lc(p) then Rc(p) else Lc(p);
        assert b'[sib] == b[sib];
        assert !prior(b[sib], b[p]);
      }
    }
  }

  /** `push`: grows the buffer (0 to 1, else doubling when full), appends the
      element and sifts it up; the contents gain exactly that element. */
  method Push<T(!new)>(h: MyHeap<T>, x: T, prior: (T, T) -> bool) returns (r: MyHeap<T>)
    requires StrictWeakOrder(prior) && Valid(h, prior)
    ensures Valid(r, prior)
    ensures |r.data| == |h.data| + 1
    ensures multiset(r.data) == multiset(h.data) + multiset{x}
    ensures h.capacity == 0 ==> r.capacity == 1
    ensures 0 < h.capacity == |h.data| ==> r.capacity == 2 * h.capacity
    ensures |h.data| < h.capacity ==> r.capacity == h.capacity
  {
    var g := h;
    if g.capacity == 0 {
      g := Reserve(g, g.capacity + 1);
    } else if |g.data| == g.capacity {
      g := Reserve(g, g.capacity * 2);
    }
    var b := g.data + [x];
    var pos: nat := |g.data|;
    assert SiftingUp(b, pos, prior) by {
      forall j | 0 < j < |b| && j != pos
        ensures !prior(b[j], b[Parent(j)])
      {
        assert b[j] == h.data[j] && b[Parent(j)] == h.data[Parent(j)];
      }
    }
    while pos != 0 && prior(b[pos], b[Parent(pos)])
      invariant SiftingUp(b, pos, prior)
      invariant |b| == |h.data| + 1
      invariant multiset(b) == multiset(h.data) + multiset{x}
      decreases pos
    {
      SiftUpSwaps(b, pos, prior);
      b := Swap(b, pos, Parent(pos));
      pos := Parent(pos);
    }
    r := MyHeap(b, g.capacity);
  }

  // ---------------------------------------------------------------------------
  // Draining in priority order (what `print` relies on)
  // ---------------------------------------------------------------------------

  /** `out` is in priority order and nothing left in `rest` has priority over it. */
  ghost predicate DrainedBefore<T(!new)>(out: seq<T>, rest: multiset<T>, prior: (T, T) -> bool)
  {
    && (forall i, j :: 0 <= i < j < |out| ==> !prior(out[j], out[i]))
    && (forall e, i :: e in rest && 0 <= i < |out| ==> !prior(e, out[i]))
  }

  /** Appending the top keeps the drained prefix in order. */
  lemma DrainStep<T(!new)>(out: seq<T>, t: T, rest: multiset<T>, prior: (T, T) -> bool)
    requires DrainedBefore(out, rest + multiset{t}, prior)
    requires forall e | e in rest :: !prior(e, t)
    ensures DrainedBefore(out + [t], rest, prior)
  {
    var out' := out + [t];
    forall i, j | 0 <= i < j < |out'|
      ensures !prior(out'[j], out'[i])
    {
      if j == |out| {
        assert t in rest + multiset{t};
      }
    }
    forall e, i | e in rest && 0 <= i < |out'|
      ensures !prior(e, out'[i])
    {
      if i < |out| {
        assert e in rest + multiset{t};
      }
    }
  }

  /** Repeated `top`/`pop` until the heap is empty yields every element once, and no
      later element has priority over an earlier one. */
  method Drain<T(!new)>(h: MyHeap<T>, prior: (T, T) -> bool) returns (out: seq<T>)
    requires StrictWeakOrder(prior) && Valid(h, prior)
    ensures multiset(out) == multiset(h.data)
    ensures forall i, j :: 0 <= i < j < |out| ==> !prior(out[j], out[i])
  {
    out := [];
    var cur := h;
    while |cur.data| > 0
      invariant Valid(cur, prior)
      invariant multiset(out) + multiset(cur.data) == multiset(h.data)
      invariant DrainedBefore(out, multiset(cur.data), prior)
      decreases |cur.data|
    {
      var t := Top(cur);
      TopIsFirst(cur, prior);
      var next := Pop(cur, prior);
      forall e | e in multiset(next.data)
        ensures !prior(e, t)
      {
        assert e in multiset(cur.data);
        var k :| 0 <= k < |cur.data| && cur.data[k] == e;
      }
      DrainStep(out, t, multiset(next.data), prior);
      out := out + [t];
      cur := next;
    }
  }
}

=== FILE: paths.dfy ===
/**
  Paths in the graph, their two costs, and `pathTrace` (graph.h), which rebuilds
  a route by following predecessor links back to the start vertex.

  The primary cost of a path is the sum of its edge weights. The secondary
  ("bribe") cost adds, for every edge, the currency value of the vertex the
  edge departs from, as Dijkstra's relaxation step does.
 */
module Paths {
  import opened Graphs
  import opened Costs

  /** There is an edge `u -> v`. */
  ghost predicate Edge(g: Graph, u: int, v: int)
  {
    WellFormed(g) && InRange(g, u) && InRange(g, v) && g.adj[u][v] != 0
  }

  function W(g: Graph, u: int, v: int): int
    requires WellFormed(g) && InRange(g, u) && InRange(g, v)
  {
    g.adj[u][v]
  }

  /** The bribe value of a vertex. */
  function Cur(g: Graph, v: int): int
    requires WellFormed(g) && InRange(g, v)
  {
    g.currencies[v].value
  }

  /** `p` is a non-empty walk along edges of `g`, defined from its last edge back. */
  ghost predicate Walk(g: Graph, p: seq<int>)
    decreases |p|
  {
    && WellFormed(g) && |p| >= 1 && InRange(g, p[|p| - 1])
    && (|p| >= 2 ==> Walk(g, p[..|p| - 1]) && Edge(g, p[|p| - 2], p[|p| - 1]))
  }

  /** `p` is a path from `a` to `b` along edges of `g`. */
  ghost predicate IsPath(g: Graph, p: seq<int>, a: int, b: int)
  {
    Walk(g, p) && p[0] == a && p[|p| - 1] == b
  }

  ghost function PathWeight(g: Graph, p: seq<int>): int
    requires Walk(g, p)
    decreases |p|
  {
    if |p| == 1 then 0 else PathWeight(g, p[..|p| - 1]) + W(g, p[|p| - 2], p[|p| - 1])
  }

  ghost function SecondaryCost(g: Graph, p: seq<int>): int
    requires Walk(g, p)
    decreases |p|
  {
    if |p| == 1 then 0 else SecondaryCost(g, p[..|p| - 1]) + Cur(g, p[|p| - 2])
  }

  /** Dropping the last vertex of a path leaves a path. */
  lemma PathPrefix(g: Graph, p: seq<int>, a: int, b: int)
    requires IsPath(g, p, a, b) && |p| >= 2
    ensures IsPath(g, p[..|p| - 1], a, p[|p| - 2]) && Edge(g, p[|p| - 2], b)
  {
  }

  /** Appending an edge to a path extends both costs by that edge. */
  lemma ExtendPath(g: Graph, q: seq<int>, a: int, b: int, c: int)
    requires IsPath(g, q, a, b) && Edge(g, b, c)
    ensures IsPath(g, q + [c], a, c) && (q + [c])[..|q|] == q
    ensures PathWeight(g, q + [c]) == PathWeight(g, q) + W(g, b, c)
    ensures SecondaryCost(g, q + [c]) == SecondaryCost(g, q) + Cur(g, b)
  {
    assert (q + [c])[..|q|] == q;
  }

  /** Every non-empty proper prefix of a path is a path, followed by an edge to the
      next vertex. */
  lemma {:induction false} PrefixPath(g: Graph, p: seq<int>, a: int, b: int, k: nat)
    requires IsPath(g, p, a, b) && 1 <= k < |p|
    ensures IsPath(g, p[..k], a, p[k - 1]) && Edge(g, p[k - 1], p[k])
    decreases |p|
  {
    var q := p[..|p| - 1];
    PathPrefix(g, p, a, b);
    if k < |p| - 1 {
      assert q[..k] == p[..k] && q[k - 1] == p[k - 1] && q[k] == p[k];
      PrefixPath(g, q, a, p[|p| - 2], k);
    } else {
      assert q == p[..k];
    }
  }

  /** With no negative weight, a prefix never weighs more than the whole path,
      and every edge adds at least 1. */
  lemma {:induction false} PrefixWeight(g: Graph, p: seq<int>, a: int, b: int, k: nat)
    requires Valid(g) && IsPath(g, p, a, b)
    requires 1 <= k <= |p|
    ensures IsPath(g, p[..k], a, p[k - 1])
    ensures PathWeight(g, p[..k]) + (|p| - k) <= PathWeight(g, p)
    decreases |p|
  {
    if k < |p| {
      var q := p[..|p| - 1];
      PathPrefix(g, p, a, b);
      assert q[..k] == p[..k];
      PrefixWeight(g, q, a, p[|p| - 2], k);
    } else {
      assert p[..k] == p;
    }
  }

  /** What `Dijkstra` leaves behind: finite distances are non-negative, and every
      reached vertex other than `s` names a reached predecessor whose labels plus
      the connecting edge give exactly its own. */
  ghost predicate PredecessorTree(g: Graph, s: int, D: seq<Ext>, N: seq<Ext>, V: seq<int>)
  {
    && Valid(g) && InRange(g, s)
    && |D| == g.vertices && |N| == g.vertices && |V| == g.vertices
    && D[s] == Fin(0) && N[s] == Fin(0)
    && (forall u :: 0 <= u < |D| && D[u].Fin? ==> D[u].n >= 0)
    && (forall u :: 0 <= u < |D| && u != s && D[u].Fin? ==>
          && Edge(g, V[u], u)
          && D[V[u]].Fin?
          && D[u].n == D[V[u]].n + W(g, V[u], u)
          && N[u] == Add(N[V[u]], Cur(g, V[u])))
  }

  /** One step of `pathTrace`: a traced path to `end`'s predecessor, followed by
      `end`, is a traced path to `end`. */
  lemma ExtendTrace(g: Graph, D: seq<Ext>, N: seq<Ext>, V: seq<int>, start: int, end: int, q: seq<int>)
    requires PredecessorTree(g, start, D, N, V)
    requires InRange(g, end) && end != start && D[end].Fin?
    requires IsPath(g, q, start, V[end]) && |q| >= 2
    requires forall i :: 0 <= i < |q| ==> InRange(g, q[i])
    requires forall i {:trigger V[q[i]]} :: 0 < i < |q| ==> InRange(g, q[i]) && V[q[i]] == q[i - 1]
    requires PathWeight(g, q) == D[V[end]].n && N[V[end]] == Fin(SecondaryCost(g, q))
    ensures var p := q + [end];
      && |p| >= 2 && p[0] == start && p[|p| - 1] == end
      && IsPath(g, p, start, end)
      && (forall i :: 0 <= i < |p| ==> InRange(g, p[i]))
      && (forall i {:trigger V[p[i]]} :: 0 < i < |p| ==> InRange(g, p[i]) && V[p[i]] == p[i - 1])
      && PathWeight(g, p) == D[end].n
      && N[end] == Fin(SecondaryCost(g, p))
  {
    var p := q + [end];
    ExtendPath(g, q, start, V[end], end);
    forall i | 0 < i < |p|
      ensures InRange(g, p[i]) && V[p[i]] == p[i - 1]
    {
      if i < |q| {
        assert p[i] == q[i] && p[i - 1] == q[i - 1];
      }
    }
  }

  /** `pathTrace(start, end)`: `[start, end]` when `end`'s predecessor is `start`,
      otherwise the trace to that predecessor followed by `end`. The result is a
      path whose weight and bribe total are the recorded labels of `end`. */
  function PathTrace(g: Graph, D: seq<Ext>, N: seq<Ext>, V: seq<int>, start: int, end: int): (p: seq<int>)
    requires PredecessorTree(g, start, D, N, V)
    requires InRange(g, end) && end != start && D[end].Fin?
    ensures |p| >= 2 && p[0] == start && p[|p| - 1] == end
    ensures IsPath(g, p, start, end)
    ensures forall i :: 0 <= i < |p| ==> InRange(g, p[i])
    ensures forall i {:trigger V[p[i]]} :: 0 < i < |p| ==> InRange(g, p[i]) && V[p[i]] == p[i - 1]
    ensures PathWeight(g, p) == D[end].n
    ensures N[end] == Fin(SecondaryCost(g, p))
    decreases D[end].n
  {
    if V[end] == start then
      [start, end]
    else
      var q := PathTrace(g, D, N, V, start, V[end]);
      ExtendTrace(g, D, N, V, start, end, q);
      q + [end]
  }
}
